=== FILE: README.md ===
# Missile defence and fleet rules, modelled in Dafny

This project models the decision and bookkeeping logic of a PostGIS-backed
missile-defence and naval-combat simulation server. The server is a set of
FastAPI routes. Everything around the SQL queries is modelled as pure
functions over exact numbers and strings; the query results and the
geometric predicates become inputs.

- **Radar sweep (defender).** Each missile ping in an attacker's reply is
  handled in one of three ways:
  - it is solved again;
  - it starts a new track;
  - it is planned against.
  Planning estimates a per-axis velocity and predicts a linear trajectory. It
  then applies a threat gate and picks an intercept point, earliest or latest
  depending on the strategy. Interceptor classes are tried in order of
  descending stock. At most one interceptor is spent, one fire solution is
  sent, the intercept is logged, and the missile is retired. Around this sit
  the sweep over attackers, the done check on the summed inventory, the
  control loop, and the inventory load from the region file (`RadarSweep`,
  `Simulation`, `Interception`, `Inventory`, `Trajectory`, `MissileSpec`).
- **Time strings.** The three conversions between `h:m:s`,
  `YYYY-MM-DD h:m:s` and `DD/MM/YY h:m:s` (`TimeConversion`), built on
  Python's `int()`/`float()` parsers and `str.split` (`Numbers`, `Strings`).
- **Ship combat.** The damage threshold, the move and turn gates, the fresh
  fleet id of a ship that splits off, gun rotation and the ammunition
  accounting of a shot (`Combat`).
- **Layout helpers.** The ten-column fleet grid and its staggered offsets,
  the JSON quote cleanup, the fleet exports (`Fleet`) and the compass-sector
  pick (`Region`).
- **Path segments.** The `key=value` and `k=v&k=v` splitting of the
  `findOne` and `findClosest` routes (`UrlTargets`).

Modelling choices:

- Tables are sequences of rows.
- The nearest battery, the battery distance, the point-in-buffer test and the
  list of targets are fields of a `Geometry` input.
- The clock reading is a real parameter.
- An attacker's HTTP reply is a `Reply` value.
- Two of the sweep's queries misbehave as written (see Findings). The context
  of a sweep carries a `Queries` choice: `AsWritten` runs them as the source
  does, `Intended` as they are evidently meant. Every property of the sweep
  and the control loop is proved for both.
- A failing query or Python exception is the `None`/`Fault`/error variant of
  the result.

## Model

| member | source | states |
|---|---|---|
| Numbers.StripPadded | Assignments/P04A/module/timeconversion.py:29 | `int()` and `float()` strip exactly the whitespace around a field whose own ends are not whitespace |
| Numbers.IntIgnoresWhitespace | Assignments/P04A/module/timeconversion.py:29 | `int()` gives the same reading with any whitespace added at either end |
| Numbers.FloatIgnoresWhitespace | Assignments/P04A/module/timeconversion.py:29 | `float()` gives the same reading with any whitespace added at either end |
| Numbers.GroupedDigits | Assignments/P04A/module/timeconversion.py:29 | a digit run with single underscores holds only digits and underscores, and dropping the underscores leaves at least one digit |
| Numbers.DigitsGrouped | Assignments/P04A/module/timeconversion.py:29 | every plain run of digits is in the underscore-grouped digit syntax |
| NumberText.IntTextRoundTrip | Assignments/P04A/module/timeconversion.py:29 | `int(str(n)) == n` for every integer |
| NumberText.IntRejects | Assignments/P04A/module/timeconversion.py:29 | a field with no whitespace at its ends that is neither grouped digits nor a sign before them makes `int()` fail |
| NumberText.ParseIntLeadingSpace | Assignments/P04A/module/timeconversion.py:29 | `int(" 7") == 7` |
| NumberText.ParseIntTrailingNewline | Assignments/P04A/module/timeconversion.py:29 | `int("-7\n") == -7` |
| NumberText.ParseIntUnderscore | Assignments/P04A/module/timeconversion.py:29 | `int("1_0") == 10` |
| NumberText.ParseIntRejectsUnderscores | Assignments/P04A/module/timeconversion.py:29 | `int()` fails on `"1__0"`, `"_1"` and `"1_"` |
| NumberText.ParseIntRejectsNonIntegers | Assignments/P04A/module/timeconversion.py:29 | `int()` fails on `"1.0"`, `""` and `"-"` |
| Numbers.FirstOf | Assignments/P04A/module/timeconversion.py:29 | the index found lies within the string and holds a `c`, or is the end of the string (`FirstOfAbsent` and `FirstOfAt` fix it to the end when there is no `c`, and to the first `c` otherwise) |
| Numbers.FractionValue | Assignments/P04A/module/timeconversion.py:29 | the digits after a decimal point are worth a fraction in `[0, 1)` |
| Numbers.FractionTrailingZero | Assignments/P04A/module/timeconversion.py:29 | a trailing zero after the point leaves the value unchanged |
| Numbers.DecimalParts | Assignments/P04A/module/timeconversion.py:29 | a mantissa reads exactly when both sides of the point are empty or grouped digits and not both empty; its value lies within one above the whole part |
| Numbers.ScaleUp | Assignments/P04A/module/timeconversion.py:29 | a positive exponent `e` multiplies the mantissa by ten to the `e` |
| Numbers.ScaleDown | Assignments/P04A/module/timeconversion.py:29 | a negative exponent `-e` divides the mantissa by ten to the `e` |
| NumberText.MantissaPoint | Assignments/P04A/module/timeconversion.py:29 | a mantissa reads as the whole part before its first point and the fractional part after it |
| NumberText.FloatExponent | Assignments/P04A/module/timeconversion.py:29 | after the first `e`/`E`, the exponent scales the mantissa; the text fails when either part fails |
| Numbers.ParseFloat | Assignments/P04A/module/timeconversion.py:29 | a negative reading needs a minus sign in the text |
| NumberText.ParseFloatExponent | Assignments/P04A/module/timeconversion.py:29 | `float("2.5e1") == 25.0` |
| NumberText.ParseFloatBarePoint | Assignments/P04A/module/timeconversion.py:29 | `float(" .5") == 0.5` |
| NumberText.ParseFloatUnderscore | Assignments/P04A/module/timeconversion.py:29 | `float("1_0.") == 10.0` |
| NumberText.ParseFloatBareExponent | Assignments/P04A/module/timeconversion.py:29 | `float("1e")` fails |
| NumberText.ParseFloatLonePoint | Assignments/P04A/module/timeconversion.py:29 | `float(".")` fails |
| NumberText.ParseFloatTwoPoints | Assignments/P04A/module/timeconversion.py:29 | `float("1.2.3")` fails |
| Numbers.IntIsFloat | Assignments/P04A/module/timeconversion.py:29 | every string `int()` accepts, `float()` accepts with the same value |
| Numbers.Trunc | Assignments/P04.2/spatialapi.py:525 | `int()` on a float truncates toward zero: the result is within one of the input, on the zero side |
| Numbers.RoundNumeric | Assignments/P04A/spatialapi.py:446-460 | a numeric stored into an `INT` column rounds to an integer within one half of it |
| Numbers.RoundNumericMonotone | Assignments/P04A/spatialapi.py:446-460 | rounding to a time code never reverses the order of two instants |
| Numbers.AngleModShift | Assignments/P04.2/spatialapi.py:780-783 | Python's `% (2*pi)` ignores whole turns added to the angle |
| Numbers.AngleModUnique | Assignments/P04.2/spatialapi.py:780-783 | the reduced angle is the unique value in `[0, 2*pi)` that differs from the input by whole turns |
| Numbers.MetersToDegreesNA | Assignments/P04.1/spatialapi.py:252-260 | degrees times 111139 give back the metres; positive exactly for positive metres |
| Numbers.DegreesToMetersNA | Assignments/P04.1/spatialapi.py:263-271 | the conversion is undone by `MetersToDegreesNA`, and no other distance converts to the same degrees |
| TimeConversion.HmsSeconds | Assignments/P04A/module/timeconversion.py:29 | the three fields parse exactly when hours and minutes are integers and seconds a float; the value is `3600*h + 60*m + s` |
| TimeConversion.ToSecondsSimple | Assignments/P04A/module/timeconversion.py:25-29 | fewer than three colon fields is an error |
| TimeConversion.ToSecondsSimpleValue | Assignments/P04A/module/timeconversion.py:25-29 | `"h:m:s"` converts to the seconds of its three fields |
| TimeConversion.ToSecondsSimpleIgnoresExtraFields | Assignments/P04A/module/timeconversion.py:28-29 | colon fields after the third do not change the result |
| TimeConversion.ToSecondsSimpleExample | Assignments/P04A/module/timeconversion.py:26-29 | `"12:12:07"` is 43927 seconds |
| TimeConversion.HmsTotal | Assignments/P04A/module/timeconversion.py:29 | the seconds exist exactly when all three fields were read, and are `3600*h + 60*m + s` |
| TimeConversion.HmsDigits | Assignments/P04A/module/timeconversion.py:29 | three digit fields give `3600*h + 60*m + s` of their values |
| TimeConversion.HmsIgnoresWhitespace | Assignments/P04A/module/timeconversion.py:29 | whitespace around any one of the three fields does not change the seconds |
| TimeConversion.ToSecondsSimpleSpaces | Assignments/P04A/module/timeconversion.py:25-29 | `"1:2: 3"` is 3723 seconds |
| TimeConversion.ToSecondsNoDate | Assignments/P04A/module/timeconversion.py:55-60 | a string without a space is an error |
| TimeConversion.ToSecondsNoDateSkipsDate | Assignments/P04A/module/timeconversion.py:55-60 | with a space-free date in front, the result is that of the clock part alone |
| TimeConversion.DropTwo | Assignments/P04A/module/timeconversion.py:103 | the year loses exactly its first two characters; a shorter year becomes empty |
| TimeConversion.DateToOtherDate | Assignments/P04A/module/timeconversion.py:89-104 | a converted date has no dash and has a space |
| TimeConversion.DateToOtherDateFields | Assignments/P04A/module/timeconversion.py:93-104 | `"Y-M-D T"` becomes `"D/M/Y' T"`, where `Y'` is the year without its first two characters; only a four-digit year gives a two-digit year field |
| MissileSpec.Lookup | Assignments/P04A/spatialapi.py:422-427 | the spec lookup finds a row exactly when a row has that class name, and the row it returns is in the table |
| MissileSpec.SpecTableRanges | Assignments/P04A/spatialapi.py:1183-1193 | every class has a speed category from 1 to 9 and a radius category from 5 to 9 |
| MissileSpec.SpecTableLabelsDistinct | Assignments/P04A/spatialapi.py:1183-1193 | the eleven class names are distinct, so a lookup by name is unambiguous |
| MissileSpec.SpeedMeters | Assignments/P04A/spatialapi.py:305-334 | category `c` from 1 to 8 gives the `c`-th of 24975, 27750, 33300, 36075, 38850, 41625, 44400 and 47175 metres; every other category gives 49950; every value lies between 24975 and 49950 |
| MissileSpec.InterceptSpeed | Assignments/P04A/spatialapi.py:305-334 | the speed in degrees is positive and converts back to the category's metres |
| MissileSpec.DangerRadius | Assignments/P04A/spatialapi.py:424 | the radius in degrees converts back to 100 metres per radius category; it is positive for every class of the table |
| Trajectory.Velocity | Assignments/P04A/spatialapi.py:429-432 | the velocity is undefined exactly when both samples share a time; otherwise it carries the prior sample onto the current one |
| Trajectory.Predict | Assignments/P04A/spatialapi.py:447-463 | `predictionCap - 1` points (none for a cap of 1 or less); point `k` lies at `current + velocity * k` with time code `now + k`, rounded |
| Trajectory.PredictTimesIncrease | Assignments/P04A/spatialapi.py:457-460 | later points have strictly larger time codes |
| Trajectory.PredictOnLine | Assignments/P04A/spatialapi.py:429-460 | every predicted point lies on the line through the prior and the current sample |
| Inventory.Load | Assignments/P04A/spatialapi.py:884-890 | one row per arsenal key except `total`, holding that key's count |
| Inventory.LoadDistinct | Assignments/P04A/spatialapi.py:884-890 | distinct arsenal keys give distinct inventory names |
| Inventory.Decrement | Assignments/P04A/spatialapi.py:606-610 | only rows of the named class lose one unit; the others are unchanged |
| Inventory.DecrementTotal | Assignments/P04A/spatialapi.py:606-610 | the summed inventory drops by exactly one when the class is held, and not at all otherwise |
| Inventory.SortRows | Assignments/P04A/spatialapi.py:437 | the rows come out in descending count and form a permutation of the input |
| Inventory.PriorityOrder | Assignments/P04A/spatialapi.py:435-440 | the trial order holds exactly the classes with a positive count, in descending count |
| Inventory.PriorityOrderRows | Assignments/P04A/spatialapi.py:437 | every class in the trial order is an inventory row with a positive count |
| Inventory.PriorityOrderTieExample | Assignments/P04A/spatialapi.py:437 | two classes with equal counts are tried in the order of the table |
| Interception.FirstReachable | Assignments/P04A/spatialapi.py:518-535 | the earliest point that is above ground and reachable in time, and none before it |
| Interception.LastReachable | Assignments/P04A/spatialapi.py:518-535 | the latest point that is above ground and reachable in time, and none after it |
| Interception.ChoosePoint | Assignments/P04A/spatialapi.py:349-355 | a point is chosen exactly when some point of the trajectory is reachable under the strategy's buffer |
| Interception.ChoosePointPolicy | Assignments/P04A/spatialapi.py:349-355 | on a predicted trajectory, shoot-latest picks a point no earlier than any reachable one and shoot-earliest one no later |
| Interception.TryClass | Assignments/P04A/spatialapi.py:499-538 | an unknown class fails the spec lookup. A hit aims at a trajectory point at or above ground, and launches no earlier than now plus the buffer and no later than impact |
| Interception.Plan | Assignments/P04A/spatialapi.py:499-612 | the first class that hits wins, every earlier class having missed; no solution exactly when every class misses; a fault exactly when an unknown class comes before any hit, every earlier class having missed |
| Interception.PlanUsesHeldClass | Assignments/P04A/spatialapi.py:437 | the class fired is an inventory row with a positive count |
| Interception.PlanShotBounds | Assignments/P04A/spatialapi.py:527-534 | the fired shot aims above ground and launches between now plus the buffer and impact |
| RadarSweep.RemoveId | Assignments/P04A/spatialapi.py:620 | the delete keeps exactly the rows of other missiles |
| RadarSweep.PriorFor | Assignments/P04A/spatialapi.py:414-419 | the prior sample is a row of the same missile, found exactly when the missile has an active row |
| RadarSweep.PriorRowAsWritten | Assignments/P04A/spatialapi.py:414-419 | the unfiltered query returns a row exactly when the active table is non-empty, from any missile |
| RadarSweep.PriorRowAsWrittenMixesMissiles | Assignments/P04A/spatialapi.py:414-419 | with two tracked missiles, the unfiltered query hands the second missile the first one's sample |
| RadarSweep.PairsWithin | Assignments/P04A/spatialapi.py:475-485 | the pair count is zero exactly when no target is within the radius of any predicted point |
| RadarSweep.ThreatCount | Assignments/P04A/spatialapi.py:472-486 | the threat count is zero exactly when the class is unknown or no target is within the blast radius of any point |
| RadarSweep.ThreatCountAsWritten | Assignments/P04A/spatialapi.py:475-485 | `COUNT` over the boolean column counts every (target, point) pair once the class is known |
| RadarSweep.ThreatCountAsWrittenCountsMisses | Assignments/P04A/spatialapi.py:475-486 | a single target far from a one-point trajectory scores 1 as written, and 0 when counting real intersections |
| RadarSweep.ThreatCountBelowAsWritten | Assignments/P04A/spatialapi.py:475-485 | the real threat count never exceeds the as-written count |
| RadarSweep.Prior | Assignments/P04A/spatialapi.py:414-419 | a missile with an active row always gets an active row as its prior sample; under the intended query it is a row of that missile, and one exists exactly when the missile is active |
| RadarSweep.Threats | Assignments/P04A/spatialapi.py:472-486 | the count the gate reads lies between the pairs that really intersect and every pair; under the intended query it is zero exactly when nothing is threatened |
| RadarSweep.SolvedAgain | Assignments/P04A/spatialapi.py:389-398 | a solved missile only gains one solved row; nothing else changes |
| RadarSweep.NewTrack | Assignments/P04A/spatialapi.py:624-632 | an unknown missile only gains one active row; nothing else changes |
| RadarSweep.SpentAtMostOneAccounting | Assignments/P04A/spatialapi.py:593-610 | one interceptor spent means one log row and one fire solution; stock plus log length is conserved |
| RadarSweep.Engage | Assignments/P04A/spatialapi.py:472-622 | the gate stops the sweep exactly for a non-altruist whose chosen count is zero, and then no target is really threatened. With no solution, inventory and log are unchanged. A fault happens exactly when the gate passes and the plan meets an unknown class before any hit. When the gate passes and the plan fires, exactly the planned class (the first in priority order with a reachable point) loses one unit, one log row is appended for it and one solution is sent |
| RadarSweep.Launch | Assignments/P04A/spatialapi.py:566-611 | the fire solution names the team, the missile and the class, is fired from the battery, aims at the intercept point with latitude first and its altitude back in metres, and carries the truncated launch second and the impact time code; the intercept is logged and exactly the named class loses one unit, so the total drops by one |
| RadarSweep.FireAndRetire | Assignments/P04A/spatialapi.py:558-622 | firing retires the missile, decrements exactly the chosen class, appends its log row, and sends one solution for that missile and class whose launch second lies between `now` plus the buffer, truncated to whole seconds, and impact |
| RadarSweep.Track | Assignments/P04A/spatialapi.py:409-432 | an unknown prior class, an unparsable time or a zero time difference fails. Otherwise the missile is retired, at most one interceptor is spent, and any shot is timely |
| RadarSweep.Feature | Assignments/P04A/spatialapi.py:377-632 | the three-way classification: solved again, newly active, or planned and always retired. At most one interceptor is spent per ping |
| RadarSweep.FeaturePlacesMissile | Assignments/P04A/spatialapi.py:389-410 | after a ping the missile is solved, or it is active and was in neither table |
| RadarSweep.FeatureKeepsSolved | Assignments/P04A/spatialapi.py:389-398 | a solved missile stays solved |
| RadarSweep.RemoveIdDistinct | Assignments/P04A/spatialapi.py:620 | deleting a missile's rows keeps one active row per missile |
| RadarSweep.SolvedGrew | Assignments/P04A/spatialapi.py:617-619 | a new solved row solves exactly its missile, besides those already solved |
| RadarSweep.FeaturePreservesWf | Assignments/P04A/spatialapi.py:377-632 | a ping keeps the invariants: one active row per missile, none both active and solved, distinct classes, every log row against a solved missile, at most one log row per missile, one solution per log row |
| RadarSweep.WfAfterRetire | Assignments/P04A/spatialapi.py:593-622 | retiring a missile that was not yet solved, with or without an interceptor, keeps the invariants, among them at most one intercept per missile |
| Simulation.ProcessFeatures | Assignments/P04A/spatialapi.py:377-379 | the feature loop ends processed or in the error answer; no features leave the tables as they were |
| Simulation.Sweep | Assignments/P04A/spatialapi.py:358-373 | no reply or an `N/A` reply changes nothing; with no attackers nothing is asked |
| Simulation.GateSkipsRest | Assignments/P04A/spatialapi.py:486-497 | once the gate stops a missile, the remaining features are never read |
| Simulation.ProcessFeaturesPreservesWf | Assignments/P04A/spatialapi.py:377-632 | a sweep keeps the table invariants |
| Simulation.ProcessFeaturesKeepsSolved | Assignments/P04A/spatialapi.py:377-632 | a solved missile stays solved through a sweep |
| Simulation.ProcessFeaturesAccounting | Assignments/P04A/spatialapi.py:593-610 | stock plus log length is conserved over a sweep, and at most one interceptor is spent per feature |
| Simulation.SweepProperties | Assignments/P04A/spatialapi.py:358-642 | a whole sweep keeps the invariants, among them at most one intercept per missile, keeps solved missiles solved and logs every interceptor it spends |
| Simulation.DoneCheck | Assignments/P04A/spatialapi.py:655-672 | the check answers False exactly when the query succeeds and the summed inventory is positive |
| Simulation.ControlLoop | Assignments/P04A/spatialapi.py:691-705 | a pass runs only while the done check is False; the loop stops early only once it is True |
| Simulation.RunCallsProperties | Assignments/P04A/spatialapi.py:691-701 | the sweeps of one pass keep the invariants, among them at most one intercept per missile, and conserve stock plus log length |
| Simulation.ControlLoopProperties | Assignments/P04A/spatialapi.py:691-701 | over the whole loop the invariants hold, among them at most one intercept per missile, and stock plus log length is conserved |
| Region.SectorIndex | Assignments/P04.1/spatialapi.py:313 | the index lies in 0..16, and the heading is within 11.25 degrees of the index times 22.5 |
| Region.SectorIndexUnique | Assignments/P04.1/spatialapi.py:313 | no other index puts the heading within its 22.5-degree slice |
| Region.PickSector | Assignments/P04.2/spatialapi.py:982-989 | the name is the compass point at the index mod 16; the window is 20.5 degrees wide, centred on the index times 22.5 |
| Region.NorthSector | Assignments/P04.1/spatialapi.py:309-316 | north is chosen exactly for headings up to 11 and from 349 degrees, index 16 wrapping to 0 |
| Fleet.GridCell | Assignments/P04.1/spatialapi.py:469 | the ship index is `10 * row + column` with a column below 10 |
| Fleet.Placement | Assignments/P04.1/spatialapi.py:480-497 | every ship goes `111 * column` east; columns divisible by 3 go `222 * row` south, the others `222 * row + 111` |
| Fleet.PlacementSpacing | Assignments/P04.1/spatialapi.py:469-497 | two different ships are at least 111 metres apart east-west or 222 metres apart north-south |
| Fleet.CleanText | Assignments/P04.1/spatialapi.py:441-452 | the cleaned text holds no single quote and no `None` |
| Fleet.CleanField | Assignments/P04.1/spatialapi.py:437-447 | a missing value becomes `null`; any cleaned field holds no single quote and no `None` |
| Fleet.ArmorCleanupAgrees | Assignments/P04.1/spatialapi.py:451-452 | the armour path, which has no `None` check, still turns a missing armour into `null` |
| Fleet.LoadFleetV1 | Assignments/P04.1/spatialapi.py:435-497 | one template row per ship, in file order, at its grid cell and staggered place, with fleet 0 and bearing 0; the JSON texts are free of single quotes |
| Fleet.ZeroAngles | Assignments/P04.2/spatialapi.py:1117-1120 | every gun gets angle 0 and is otherwise unchanged |
| Fleet.LoadFleetV2 | Assignments/P04.2/spatialapi.py:1115-1181 | as the earlier load, and every loaded gun starts at angle 0 |
| Fleet.ExportFleet | Assignments/P04.1/spatialapi.py:513-545 | one dictionary per template row, in row order; a failed query gives the error answer |
| Fleet.ExportAfterLoad | Assignments/P04.1/spatialapi.py:435-545 | exporting a fresh template gives back each ship's id, class, size, speed and turn radius, at its staggered place, with rows read in insertion order |
| Fleet.ExportFleetPosition | Assignments/P04.1/spatialapi.py:559-582 | the fleet id is the team name, with one status per row in row order |
| Combat.ShipDamage | Assignments/P04.2/spatialapi.py:268-285 | no damage once hull plus deck reaches the energy; otherwise energy times rate of fire; a missing ship or armour entry is an error |
| Combat.NoDamageIff | Assignments/P04.2/spatialapi.py:276-285 | with a non-zero shot and rate, damage is 0 exactly when the armour reaches the energy |
| Combat.ArmorBelowThresholdIrrelevant | Assignments/P04.2/spatialapi.py:282-284 | armour below the threshold does not reduce the damage |
| Combat.MoveGate | Assignments/P04.2/spatialapi.py:521-526 | a move is refused exactly when `int(min speed) < int(distance)`; a missing fleet is an error |
| Combat.MoveGateBounds | Assignments/P04.2/spatialapi.py:521-526 | every distance up to the minimum speed is allowed, and an allowed move exceeds it by less than one metre |
| Combat.TurnGate | Assignments/P04.2/spatialapi.py:646-650 | a turn is refused exactly when `int(min turn radius) < abs(delta)` |
| Combat.TurnGateSymmetric | Assignments/P04.2/spatialapi.py:646-650 | left and right turns of one size are judged alike; every turn up to the integer part is allowed |
| Combat.MaxOf | Assignments/P04.2/spatialapi.py:589 | the maximum is one of the ids and no id exceeds it |
| Combat.NewFleetId | Assignments/P04.2/spatialapi.py:587-593 | the new id is one more than the largest existing id, so it differs from every existing id; an empty table is an error |
| Combat.MoveShip | Assignments/P04.2/spatialapi.py:579-593 | a single ship is refused by the same speed gate; an accepted ship gets a fleet id no other fleet has |
| Combat.RotateShip | Assignments/P04.2/spatialapi.py:704-717 | a single ship is refused by the same turn gate; an accepted ship gets a fleet id no other fleet has |
| Combat.TurnGun | Assignments/P04.2/spatialapi.py:779-783 | a turned gun keeps everything but its angle, which lands in `[0, 2*pi)` |
| Combat.RotateGuns | Assignments/P04.2/spatialapi.py:775-783 | a missing or empty armament is an error; otherwise every gun turns by the same delta |
| Combat.RotateGunsInverse | Assignments/P04.2/spatialapi.py:779-783 | turning back by `-delta` restores each gun's angle, reduced into `[0, 2*pi)` |
| Combat.RotateLoadedGunsInverse | Assignments/P04.2/spatialapi.py:779-783 | guns at angle 0, as loaded, are restored exactly |
| Combat.PyIndex | Assignments/P04.2/spatialapi.py:855 | a list index is valid exactly from `-n` to `n - 1`, negatives counting from the end |
| Combat.FireGun | Assignments/P04.2/spatialapi.py:849-876 | errors: no armament, a bad index, an empty ammo list. A count at or below 0 means no ammo; a distance of 100000 or more is out of range. A shot fires `min(rof, count)`, leaves the count non-negative and changes no other gun |
| Combat.FireGunAimsAtTarget | Assignments/P04.2/spatialapi.py:858-876 | after a shot, the gun's angle plus the ship's bearing equals the target bearing, up to whole turns |
| Combat.FireGunAccounting | Assignments/P04.2/spatialapi.py:871-875 | rounds fired plus rounds left equal the rounds there were; at most `rof` fire, and at least one when `rof` is positive |
| UrlTargets.FindOne | Assignments/Project01/spatialapi.py:148-155 | a segment without `=` is invalid; otherwise the attribute and the value contain no `=` |
| UrlTargets.FindOneRoundTrip | Assignments/Project01/spatialapi.py:150-153 | `attribute=value` gives back its attribute and value |
| UrlTargets.FindOneIgnoresRest | Assignments/Project01/spatialapi.py:150-153 | everything from a second `=` on is ignored |
| UrlTargets.ClosestPieces | Assignments/Project01/spatialapi.py:218 | after `&` becomes `=`, no piece holds either separator |
| UrlTargets.FindClosest | Assignments/Project01/spatialapi.py:213-224 | the segment is invalid exactly when it has fewer than four pieces |
| UrlTargets.FindClosestRoundTrip | Assignments/Project01/spatialapi.py:218-222 | `a=x&b=y` gives back `x` and `y` |
| UrlTargets.FindClosestIgnoresNames | Assignments/Project01/spatialapi.py:218-222 | the names before the values never matter, only their positions |
| UrlTargets.FindClosestSeparators | Assignments/Project01/spatialapi.py:218 | `&` and `=` are interchangeable as separators |
| Strings.Split | Assignments/P04A/module/timeconversion.py:28 | `split` yields at least one piece, no piece holds the separator, and joining the pieces gives the input back |
| Strings.SplitJoin | Assignments/P04A/module/timeconversion.py:28 | splitting undoes joining when no piece holds the separator |
| Strings.ReplaceNoneLeavesNoNone | Assignments/P04.1/spatialapi.py:444 | after `replace('None', 'null')` no `None` is left anywhere |

## Left out

- SQL and PostGIS execution: `DatabaseCursor`, table create/destroy/vacuum routes, and the geometry (`ST_3DDistance`, `ST_Project`, `ST_Intersects`, `ST_Buffer`). Nearest battery, distance, point-in-buffer and the target list are inputs; query results are inputs.
- HTTP: FastAPI routing, the attacker calls (RADAR_SWEEP, FIRE_SOLUTION, START/QUIT, GET_CLOCK), and the JSON payload serialisation. A fire solution is the `FireSolution` record appended to the `sent` list.
- Clock and sleeping: `time.sleep`, `datetime.now`, and the timezone-dependent `convertTimeToSeconds`/`convertTimeFromSeconds`. The clock is a parameter.
- RadarSweep.Feature: the prior sample is whatever `Prior` returns for the context's `Queries`. As written it may be another missile's row; the contract promises only that the velocity is taken against some active row, not against which one.
- RadarSweep.Engage: the gate reads `Threats` for the context's `Queries`. The contract bounds that count between the real intersections and all pairs; it does not restate either count.
- RadarSweep.Track: takes the prior row as an argument. Its contract holds for any prior row, so it covers both readings of the prior-sample query.
- RadarSweep.FireAndRetire: fire solutions carry the whole launch and impact seconds, not the `DD/MM/YY` strings the source builds from them through `convertTimeFromSeconds`, which depends on the local timezone.
- `convertTimeFromSecondsNoDate`: its `/` is float division, so it does not invert the parser; no round trip is claimed.
- Floating point. Reals are exact, so `pi`, degree conversions and `%` are idealised. `Pi` is the decimal value of Python's `math.pi`.
- Randomness in `loadRegion`: the heading is an input in `[0, 360)`. The random point generation of the spawn regions is left out.
- Global IP lists, the add/clear/persist routes, and startup.
- Numbers.ParseInt: only the ASCII digits `0`-`9` are digits; Python also takes other Unicode decimal digits.
- Numbers.ParseFloat: `inf`, `infinity` and `nan` in any case, with or without a sign, read as a failure here, not as those values. Digits outside ASCII are not digits. Readings are exact reals, with no rounding to a 64-bit float and no overflow to infinity.
- Typed inputs. Path parameters are typed numbers, not strings. The source's `abs()` of a string in the turn gates and its string list index in `fireGun` would otherwise always fail. The move gate takes `int()` of the distance string, which raises on a fractional text such as `"100.5"`; the model takes the distance as a real and truncates it, so Combat.MoveGateBounds speaks of distances Python would refuse with an error.
- Fleet.LoadFleetV1: the template table is assumed empty before the load, and ship ids are assumed distinct. The three stagger UPDATEs act on every row of the table and join on `ship_id`, so rows left from an earlier load would be moved a second time, and a repeated id would match several rows. Fleet.LoadFleetV2 makes the same assumption.
- Fleet.ExportAfterLoad: the export's SELECT has no `ORDER BY`, and the UPDATEs write new row versions, so PostgreSQL promises no order for the rows. The model reads the rows back in insertion order; the source promises only the same rows in some order.
- Combat.RotateGuns: `None` stands for two answers. A missing ship makes `fetchone()[0]` raise, which gives the database-configuration error string; a null or empty armament gives "Error: Invalid ship or no guns on ship.". The model does not tell the two apart.
- Combat.MoveShip: the source's ship-level query filters on a `ship_num` column the schema does not have. The model takes the query's result as an input.
- Combat.RotateShip: likewise for the `ship_num` query.
- The follow-up `moveFleet`/`rotateFleet` call after a split, and the SQL bearing update of a turn.
- Combat.FireGun: the distance and angle come from the firing query, which reads ship 0 and uses `targetX` twice. They are inputs here.
- Inventory.PriorityOrder: classes with equal counts are tried in table order. PostgreSQL leaves that order unspecified.
- Simulation.ControlLoop: a database error inside the loop, and the sleep between passes, are not modelled. The passes are a finite sequence.
- Region.PickSector: the `direction == 0` branch is dead, because a compass name is a string. The model has no such branch.
- Simulation.Sweep: the sweep's `None` return after an `N/A` reply is `NoResponse`, with the tables unchanged.
- The answer strings of the routes are modelled as the variants of result datatypes.
- Python's `str()` rendering of an armament list is the `render` parameter of the fleet loads.
- `menu.py` and `listener.py` of the terminal client are not part of this model.

## Findings

| source | as written | input that shows it | evidently intended | confidence | as-written member | corrected member |
|---|---|---|---|---|---|---|
| Assignments/P04A/spatialapi.py:414-419 | the prior sample is the first row of the whole active table, with no `WHERE missile_id` | two missiles tracked, ids 1 then 2; a ping for 2 gets missile 1's position, time and class | the prior row of the same missile | medium, not executed | RadarSweep.PriorRowAsWrittenMixesMissiles | RadarSweep.PriorFor |
| Assignments/P04A/spatialapi.py:475-486 | `count(ST_Intersects(...))` counts every row, whether the intersection holds or not | one target far from a one-point trajectory counts 1, so the threat gate never fires for a known class | count only the pairs that intersect | medium, not executed | RadarSweep.ThreatCountAsWrittenCountsMisses | RadarSweep.ThreatCount |

=== FILE: combat.dfy ===
/** The Python-side rules of ship combat: the damage threshold, the move and turn
    gates, the fleet id of a ship that splits off, gun rotation and the ammunition
    accounting of a shot. Query results arrive as inputs. */
module Combat {
  import opened Common
  import opened Numbers
  import opened Fleet

  /** Hull and deck armour as the armour query returns them; a missing entry is a
      JSON null, which `float()` refuses. */
  datatype Armor = Armor(hull: Option<real>, deck: Option<real>)

  /** The answer of `shipDamageCalculation`: the error string, or the damage. */
  datatype DamageResult = DamageError | Damage(amount: real)

  /** Joules absorbed by one point of armour. */
  const EnergyConversionFactor: real := 1.0

  /** `shipDamageCalculation`: no damage when the armour total reaches the shot's
      energy; otherwise the full energy times the rate of fire, not reduced by
      the armour. A missing ship or armour entry is an error. */
  function ShipDamage(armor: Option<Armor>, joules: real, fireRate: real): (r: DamageResult)
    ensures r.DamageError? <==> armor.None? || armor.value.hull.None? || armor.value.deck.None?
    ensures r.Damage? ==>
      (var total := armor.value.hull.value + armor.value.deck.value;
       (total >= joules ==> r.amount == 0.0) && (total < joules ==> r.amount == joules * fireRate))
  {
    match armor
    case None => DamageError
    case Some(a) =>
      if a.hull.None? || a.deck.None? then DamageError
      else if a.hull.value + a.deck.value >= joules / EnergyConversionFactor then Damage(0.0)
      else Damage(joules * fireRate)
  }

  /** With a non-zero shot and rate of fire, a ship takes no damage exactly when
      its armour total reaches the shot's energy. */
  lemma NoDamageIff(hull: real, deck: real, joules: real, fireRate: real)
    requires joules != 0.0 && fireRate != 0.0
    ensures ShipDamage(Some(Armor(Some(hull), Some(deck))), joules, fireRate) == Damage(0.0) <==> hull + deck >= joules
  {
    if hull + deck < joules {
      assert joules * fireRate != 0.0;
    }
  }

  /** Armour below the threshold does not soften a hit: any two such ships take
      the same damage. */
  lemma ArmorBelowThresholdIrrelevant(a: Armor, b: Armor, joules: real, fireRate: real)
    requires a.hull.Some? && a.deck.Some? && b.hull.Some? && b.deck.Some?
    requires a.hull.value + a.deck.value < joules && b.hull.value + b.deck.value < joules
    ensures ShipDamage(Some(a), joules, fireRate) == ShipDamage(Some(b), joules, fireRate) == Damage(joules * fireRate)
  {
  }

  /** The outcome of a move or turn request. */
  datatype GateResult = GateError | Rejected | Allowed

  /** `moveFleet`: refused when `int(min speed) < int(distance)`; a missing minimum
      (no such fleet) fails in `int()`. */
  function MoveGate(minSpeed: Option<real>, distance: real): (r: GateResult)
    ensures r.GateError? <==> minSpeed.None?
    ensures r.Rejected? <==> minSpeed.Some? && Trunc(minSpeed.value) < Trunc(distance)
  {
    match minSpeed
    case None => GateError
    case Some(m) => if Trunc(m) < Trunc(distance) then Rejected else Allowed
  }

  /** Any distance up to the slowest ship's speed is allowed, and an allowed move
      exceeds that speed by less than one metre. */
  lemma MoveGateBounds(minSpeed: real, distance: real)
    requires 0.0 <= distance && 0.0 <= minSpeed
    ensures distance <= minSpeed ==> MoveGate(Some(minSpeed), distance) == Allowed
    ensures MoveGate(Some(minSpeed), distance) == Allowed ==> distance < minSpeed + 1.0
  {
    if distance <= minSpeed {
      assert Trunc(distance) <= Trunc(minSpeed) by {
        assert Trunc(distance) as real <= distance <= minSpeed < Trunc(minSpeed) as real + 1.0;
      }
    }
  }

  /** `rotateFleet`: refused when `int(min turn radius) < abs(delta)`. */
  function TurnGate(minTurn: Option<real>, delta: real): (r: GateResult)
    ensures r.GateError? <==> minTurn.None?
    ensures r.Rejected? <==> minTurn.Some? && Trunc(minTurn.value) as real < (if delta < 0.0 then -delta else delta)
  {
    match minTurn
    case None => GateError
    case Some(m) => if Trunc(m) as real < (if delta < 0.0 then -delta else delta) then Rejected else Allowed
  }

  /** Turning left and turning right by the same amount are judged alike, and a
      non-negative minimum allows every turn up to its integer part. */
  lemma TurnGateSymmetric(minTurn: real, delta: real)
    requires 0.0 <= minTurn
    ensures TurnGate(Some(minTurn), delta) == TurnGate(Some(minTurn), -delta)
    ensures (if delta < 0.0 then -delta else delta) <= Trunc(minTurn) as real ==> TurnGate(Some(minTurn), delta) == Allowed
  {
  }

  /** The largest value of a non-empty list. */
  function MaxOf(s: seq<int>): (m: int)
    requires |s| > 0
    ensures m in s
    ensures forall x :: x in s ==> x <= m
  {
    if |s| == 1 then s[0]
    else
      var rest := MaxOf(s[1..]);
      assert forall x :: x in s ==> x == s[0] || x in s[1..];
      if s[0] >= rest then s[0] else rest
  }

  /** `MAX(fleet_num) + 1`: a fleet id above every existing one. On an empty table
      the maximum is NULL and `int()` fails. */
  function NewFleetId(fleetNums: seq<int>): (r: Option<int>)
    ensures r.None? <==> |fleetNums| == 0
    ensures r.Some? ==> r.value !in fleetNums && (forall x :: x in fleetNums ==> x < r.value) && r.value - 1 in fleetNums
  {
    if |fleetNums| == 0 then None else Some(MaxOf(fleetNums) + 1)
  }

  /** The outcome of moving or turning a single ship: it splits off into a new
      fleet of its own before the move. */
  datatype SplitResult = SplitError | SplitRejected | SplitOff(newFleet: int)

  /** A split: the gate first, then the new fleet id. */
  function SplitAfterGate(gate: GateResult, fleetNums: seq<int>): (r: SplitResult)
    ensures r.SplitRejected? <==> gate.Rejected?
    ensures r.SplitOff? <==> gate.Allowed? && |fleetNums| > 0
    ensures r.SplitOff? ==> r.newFleet !in fleetNums && forall x :: x in fleetNums ==> x < r.newFleet
  {
    match gate
    case GateError => SplitError
    case Rejected => SplitRejected
    case Allowed =>
      match NewFleetId(fleetNums)
      case None => SplitError
      case Some(id) => SplitOff(id)
  }

  /** `moveShip`: the fleet's speed gate for one ship, then a fresh fleet id. */
  function MoveShip(minSpeed: Option<real>, distance: real, fleetNums: seq<int>): (r: SplitResult)
    ensures r.SplitRejected? <==> MoveGate(minSpeed, distance).Rejected?
    ensures r.SplitOff? <==> MoveGate(minSpeed, distance).Allowed? && |fleetNums| > 0
    ensures r.SplitOff? ==> r.newFleet !in fleetNums
  {
    SplitAfterGate(MoveGate(minSpeed, distance), fleetNums)
  }

  /** `rotateShip`: the fleet's turn gate for one ship, then a fresh fleet id. */
  function RotateShip(minTurn: Option<real>, delta: real, fleetNums: seq<int>): (r: SplitResult)
    ensures r.SplitRejected? <==> TurnGate(minTurn, delta).Rejected?
    ensures r.SplitOff? <==> TurnGate(minTurn, delta).Allowed? && |fleetNums| > 0
    ensures r.SplitOff? ==> r.newFleet !in fleetNums
  {
    SplitAfterGate(TurnGate(minTurn, delta), fleetNums)
  }

  /** One gun turned by `delta` degrees, its angle reduced into `[0, 2*pi)`. */
  function TurnGun(g: Gun, delta: real): (r: Gun)
    ensures r.(angle := g.angle) == g
    ensures 0.0 <= r.angle < TwoPi
  {
    g.(angle := AngleMod(g.angle + delta * Pi / 180.0))
  }

  /** The later `rotateShipGuns`: a missing or empty armament is an error and
      nothing is written; otherwise every gun turns by `delta` degrees. */
  function RotateGuns(armament: Option<seq<Gun>>, delta: real): (r: Option<seq<Gun>>)
    ensures r.None? <==> armament.None? || |armament.value| == 0
    ensures r.Some? ==>
      (|r.value| == |armament.value| &&
       forall k :: 0 <= k < |r.value| ==> r.value[k] == TurnGun(armament.value[k], delta))
  {
    match armament
    case None => None
    case Some(guns) =>
      if |guns| == 0 then None
      else Some(seq(|guns|, k requires 0 <= k < |guns| => TurnGun(guns[k], delta)))
  }

  /** Turning back by `-delta` undoes a turn by `delta`: each gun ends at its
      original angle reduced into `[0, 2*pi)`, the guns themselves unchanged. */
  lemma RotateGunsInverse(guns: seq<Gun>, delta: real)
    requires |guns| > 0
    ensures var back := RotateGuns(RotateGuns(Some(guns), delta), -delta);
      back.Some? && |back.value| == |guns| &&
      forall k :: 0 <= k < |guns| ==> back.value[k] == guns[k].(angle := AngleMod(guns[k].angle))
  {
    var once := RotateGuns(Some(guns), delta).value;
    forall k | 0 <= k < |guns|
      ensures TurnGun(once[k], -delta) == guns[k].(angle := AngleMod(guns[k].angle))
    {
      TurnBack(guns[k].angle, delta * Pi / 180.0);
    }
  }

  /** `(a + x) % 2pi` turned back by `x` is `a % 2pi`. */
  lemma TurnBack(a: real, x: real)
    ensures AngleMod(AngleMod(a + x) + -x) == AngleMod(a)
  {
    var q := ((a + x) / TwoPi).Floor;
    var k := -q;
    var y := a + TwoPi * k as real;
    assert AngleMod(a + x) == a + x - TwoPi * q as real;
    assert AngleMod(a + x) + -x == y;
    AngleModShift(a, k);
  }

  /** The guns of a freshly loaded ship point straight ahead, so a turn there and
      back restores them exactly. */
  lemma RotateLoadedGunsInverse(guns: seq<Gun>, delta: real)
    requires |guns| > 0
    requires forall k :: 0 <= k < |guns| ==> guns[k].angle == 0.0
    ensures RotateGuns(RotateGuns(Some(guns), delta), -delta) == Some(guns)
  {
    RotateGunsInverse(guns, delta);
    AngleModInRange(0.0);
    var back := RotateGuns(RotateGuns(Some(guns), delta), -delta).value;
    forall k | 0 <= k < |guns| ensures back[k] == guns[k] {
      assert guns[k].(angle := AngleMod(guns[k].angle)) == guns[k];
    }
    assert back == guns;
  }

  /** Python's `list[k]`: a negative index counts from the end. */
  function PyIndex(n: nat, k: int): (r: Option<nat>)
    ensures r.Some? <==> -(n as int) <= k < n
    ensures r.Some? ==> r.value < n && (r.value == k || r.value == k + n)
  {
    if 0 <= k < n then Some(k) else if -(n as int) <= k < 0 then Some(k + n) else None
  }

  /** The answer of `fireGun`. */
  datatype FireResult = FireError | NoAmmo | OutOfRange | Fired(armament: seq<Gun>, shots: int)

  /** The range limit of every gun, in metres. */
  const MaxRange: real := 100000.0

  /** `fireGun`, given what the firing query returns: the ship's bearing and
      armament, the distance and the angle from the gun to the target. */
  function FireGun(armament: Option<seq<Gun>>, gunNumber: int, shipBearing: real,
                   targetDistance: real, targetBearing: real): (r: FireResult)
    ensures r.FireError? <==>
      (armament.None? || PyIndex(|armament.value|, gunNumber).None? ||
       |armament.value[PyIndex(|armament.value|, gunNumber).value].ammo| == 0)
    ensures !r.FireError? ==>
      (var g := armament.value[PyIndex(|armament.value|, gunNumber).value];
       (r.NoAmmo? <==> g.ammo[0] <= 0) &&
       (r.OutOfRange? <==> g.ammo[0] > 0 && targetDistance >= MaxRange))
    ensures r.Fired? ==> |r.armament| == |armament.value|
    ensures r.Fired? ==>
      (var i := PyIndex(|armament.value|, gunNumber).value;
       var g, h := armament.value[i], r.armament[i];
       (forall j :: 0 <= j < |r.armament| && j != i ==> r.armament[j] == armament.value[j]) &&
       r.shots == (if g.rof < g.ammo[0] then g.rof else g.ammo[0]) &&
       |h.ammo| == |g.ammo| && h.ammo[0] == g.ammo[0] - r.shots >= 0 &&
       h.ammo[1..] == g.ammo[1..] && h.pos == g.pos && h.rof == g.rof)
  {
    match armament
    case None => FireError
    case Some(guns) =>
      match PyIndex(|guns|, gunNumber)
      case None => FireError
      case Some(i) =>
        var g := guns[i];
        var adjustment := targetBearing - AngleMod(shipBearing + g.angle);
        if |g.ammo| == 0 then FireError
        else if g.ammo[0] <= 0 then NoAmmo
        else if targetDistance >= MaxRange then OutOfRange
        else
          var shots := if g.ammo[0] <= g.rof then g.ammo[0] else g.rof;
          var fired := g.(ammo := g.ammo[0 := g.ammo[0] - shots], angle := AngleMod(g.angle + adjustment));
          Fired(guns[i := fired], shots)
  }

  /** A shot leaves the fired gun aimed at the target: its angle added to the
      ship's bearing is the target's bearing, up to whole turns. */
  lemma FireGunAimsAtTarget(armament: seq<Gun>, gunNumber: int, shipBearing: real,
                            targetDistance: real, targetBearing: real)
    requires FireGun(Some(armament), gunNumber, shipBearing, targetDistance, targetBearing).Fired?
    ensures var i := PyIndex(|armament|, gunNumber).value;
      var r := FireGun(Some(armament), gunNumber, shipBearing, targetDistance, targetBearing);
      AngleMod(shipBearing + r.armament[i].angle) == AngleMod(targetBearing)
  {
    var i := PyIndex(|armament|, gunNumber).value;
    var a := armament[i].angle;
    var q2 := ((shipBearing + a) / TwoPi).Floor;
    var x := a + (targetBearing - AngleMod(shipBearing + a));
    var q1 := (x / TwoPi).Floor;
    var k := q2 - q1;
    assert AngleMod(shipBearing + a) == shipBearing + a - TwoPi * q2 as real;
    assert x == targetBearing - shipBearing + TwoPi * q2 as real;
    assert AngleMod(x) == x - TwoPi * q1 as real;
    assert shipBearing + AngleMod(x) == targetBearing + TwoPi * k as real;
    AngleModShift(targetBearing, k);
  }

  /** Ammunition is conserved: the rounds fired plus the rounds left are the
      rounds there were, and a gun with a positive rate of fire fires at least one. */
  lemma FireGunAccounting(armament: seq<Gun>, gunNumber: int, shipBearing: real,
                          targetDistance: real, targetBearing: real)
    requires FireGun(Some(armament), gunNumber, shipBearing, targetDistance, targetBearing).Fired?
    ensures var i := PyIndex(|armament|, gunNumber).value;
      var r := FireGun(Some(armament), gunNumber, shipBearing, targetDistance, targetBearing);
      r.shots + r.armament[i].ammo[0] == armament[i].ammo[0] &&
      r.shots <= armament[i].rof &&
      (armament[i].rof > 0 ==> r.shots > 0)
  {
  }
}

=== FILE: common.dfy ===
/** Shared failure-compatible result shape used across the model. */
module Common {

  /** `None` stands for a Python `None`, a missing query row or a parse failure. */
  datatype Option<T> = None | Some(value: T)
}

=== FILE: fleet.dfy ===
/** The fleet template: loading ships from the fleet file onto a ten-column grid
    with staggered rows, the quote cleanup of JSON text bound for PostgreSQL,
    and the two export shapes. */
module Fleet {
  import opened Common
  import opened Strings
  import opened Numbers

  /** Ships per template row. */
  const Columns: nat := 10

  /** Grid spacing, in metres, of the template's staggered layout. */
  const ColumnSpacing: int := 111
  const RowSpacing: int := 222

  /** One gun of a ship's armament: its angle in radians, its offset along the
      ship, its rate of fire and the counts of its ammunition entries. */
  datatype Gun = Gun(angle: real, pos: real, rof: int, ammo: seq<int>)

  /** A ship of the fleet file. The torpedo and armour entries are kept as the
      text Python's `str()` gives for them; `None` is a JSON null. */
  datatype Ship = Ship(id: int, category: string, shipClass: string, length: real, width: real,
                       torpedoLaunchers: Option<string>, armament: Option<seq<Gun>>,
                       armor: Option<string>, speed: real, turnRadius: real)

  /** Displacement of a template ship from the origin, in metres east and south. */
  datatype Offset = Offset(east: int, south: int)

  /** A row of `fleet_template` once the load has run. `armament` is the value
      the armament text was rendered from. */
  datatype TemplateRow = TemplateRow(shipId: int, category: string, shipClass: string,
                                     displacement: real, length: real, width: real,
                                     torpedoText: string, armament: Option<seq<Gun>>,
                                     armamentText: string, armorText: string,
                                     speed: real, turnRadius: real, col: nat, row: nat,
                                     fleetNum: int, bearing: real, offset: Offset)

  /** `index % numCols` and `int(index / numCols)`, the second a float division
      truncated by `int`: column and row of the `i`-th ship. */
  function GridCell(i: nat): (r: (nat, nat))
    ensures r.0 < Columns
    ensures i == Columns * r.1 + r.0
  {
    var q := Trunc(i as real / Columns as real);
    assert Columns * q <= i < Columns * q + Columns;
    (i - Columns * q, q)
  }

  /** The three `UPDATE`s that spread the template, applied in order to a ship at
      the origin: columns divisible by three go `222 * row` south, every ship
      goes `111 * col` east, the other columns go `222 * row + 111` south. */
  function Stagger(col: nat, row: nat): (r: Offset)
  {
    var first := if col % 3 == 0 then Offset(0, RowSpacing * row) else Offset(0, 0);
    var second := Offset(first.east + ColumnSpacing * col, first.south);
    if col % 3 != 0 then Offset(second.east, second.south + RowSpacing * row + ColumnSpacing) else second
  }

  /** Where the `i`-th ship ends up. */
  function Placement(i: nat): (r: Offset)
    ensures r.east == ColumnSpacing * (i % Columns)
    ensures r.south == RowSpacing * (i / Columns) + (if i % Columns % 3 == 0 then 0 else ColumnSpacing)
  {
    var cell := GridCell(i);
    Stagger(cell.0, cell.1)
  }

  /** Two different ships never share a spot: they are at least a column apart
      east-west or two half-rows apart north-south. */
  lemma PlacementSpacing(i: nat, j: nat)
    requires i != j
    ensures var a, b := Placement(i), Placement(j);
      a.east - b.east >= ColumnSpacing || b.east - a.east >= ColumnSpacing ||
      a.south - b.south >= RowSpacing || b.south - a.south >= RowSpacing
  {
    if i % Columns == j % Columns {
      assert i / Columns != j / Columns;
    }
  }

  /** Python's `str()` of an optional value: `None` prints as `None`. */
  function PyStr(v: Option<string>): string
  {
    match v
    case None => "None"
    case Some(t) => t
  }

  /** `replace('\'', '"')` then `replace('None', 'null')`: the text no longer
      holds a single quote or the word `None`. */
  function CleanText(t: string): (r: string)
    ensures '\'' !in r
    ensures forall i: nat :: !OccursAt(r, "None", i)
  {
    var r := ReplaceNone(ReplaceChar(t, '\'', '"'));
    forall i: nat ensures !OccursAt(r, "None", i) {
      ReplaceNoneLeavesNoNone(ReplaceChar(t, '\'', '"'), i);
    }
    r
  }

  /** A field cleaned for PostgreSQL: `null` for a missing value, otherwise its
      text with quotes and `None`s rewritten. */
  function CleanField(v: Option<string>): (r: string)
    ensures '\'' !in r
    ensures forall i: nat :: !OccursAt(r, "None", i)
    ensures v.None? ==> r == "null"
  {
    match v
    case None =>
      assert forall i: nat :: !OccursAt("null", "None", i) by {
        forall i: nat ensures !OccursAt("null", "None", i) {
          if i == 0 { assert "null"[1] != "None"[1]; }
        }
      }
      "null"
    case Some(t) => CleanText(t)
  }

  /** The armour text skips the `None` check, yet comes out the same: Python
      prints `None`, and the second replacement turns it into `null`. */
  lemma ArmorCleanupAgrees(v: Option<string>)
    ensures CleanText(PyStr(v)) == CleanField(v)
  {
    if v.None? {
      assert ReplaceChar("None", '\'', '"') == "None";
      assert ReplaceNone("None") == "null" + ReplaceNone("");
    }
  }

  /** The armament rendered by `str()` and cleaned. */
  function ArmamentText(guns: Option<seq<Gun>>, render: seq<Gun> -> string): (r: string)
    ensures '\'' !in r
    ensures guns.None? ==> r == "null"
  {
    CleanField(if guns.None? then None else Some(render(guns.value)))
  }

  /** The template row the load inserts for the `i`-th ship, after the stagger. */
  function TemplateRowFor(ship: Ship, i: nat, guns: Option<seq<Gun>>, render: seq<Gun> -> string): TemplateRow
  {
    var cell := GridCell(i);
    TemplateRow(ship.id, ship.category, ship.shipClass, 0.0, ship.length, ship.width,
                CleanField(ship.torpedoLaunchers), guns, ArmamentText(guns, render),
                CleanText(PyStr(ship.armor)), ship.speed, ship.turnRadius,
                cell.0, cell.1, 0, 0.0, Stagger(cell.0, cell.1))
  }

  /** What a loaded row holds for the `i`-th ship whose armament went in as `guns`. */
  predicate LoadedAs(row: TemplateRow, ship: Ship, i: nat, guns: Option<seq<Gun>>)
  {
    row.shipId == ship.id && row.category == ship.category && row.shipClass == ship.shipClass &&
    row.length == ship.length && row.width == ship.width && row.speed == ship.speed &&
    row.turnRadius == ship.turnRadius && row.armament == guns &&
    Columns * row.row + row.col == i && row.col < Columns &&
    row.offset == Placement(i) && row.fleetNum == 0 && row.bearing == 0.0 &&
    '\'' !in row.torpedoText && '\'' !in row.armamentText && '\'' !in row.armorText &&
    (ship.torpedoLaunchers.None? ==> row.torpedoText == "null") &&
    (ship.armor.None? ==> row.armorText == "null") &&
    (guns.None? ==> row.armamentText == "null")
  }

  lemma TemplateRowForLoads(ship: Ship, i: nat, guns: Option<seq<Gun>>, render: seq<Gun> -> string)
    ensures LoadedAs(TemplateRowFor(ship, i, guns, render), ship, i, guns)
  {
    ArmorCleanupAgrees(ship.armor);
  }

  /** The earlier `loadFleetJSON`: one template row per ship of the file, in file
      order, into an empty template table. */
  function LoadFleetV1(ships: seq<Ship>, render: seq<Gun> -> string): (r: seq<TemplateRow>)
    ensures |r| == |ships|
    ensures forall i :: 0 <= i < |r| ==> LoadedAs(r[i], ships[i], i, ships[i].armament)
  {
    var r := seq(|ships|, i requires 0 <= i < |ships| => TemplateRowFor(ships[i], i, ships[i].armament, render));
    forall i | 0 <= i < |r| ensures LoadedAs(r[i], ships[i], i, ships[i].armament) {
      TemplateRowForLoads(ships[i], i, ships[i].armament, render);
    }
    r
  }

  /** Every gun pointed straight ahead, nothing else about it changed. */
  function ZeroAngles(guns: Option<seq<Gun>>): (r: Option<seq<Gun>>)
    ensures r.None? <==> guns.None?
    ensures r.Some? ==>
      (|r.value| == |guns.value| &&
       forall k :: 0 <= k < |r.value| ==> r.value[k] == guns.value[k].(angle := 0.0))
  {
    match guns
    case None => None
    case Some(g) => Some(seq(|g|, k requires 0 <= k < |g| => g[k].(angle := 0.0)))
  }

  /** The later `loadFleetJSON`: as the earlier one, but every gun's angle is set
      to 0 before the armament is written. */
  function LoadFleetV2(ships: seq<Ship>, render: seq<Gun> -> string): (r: seq<TemplateRow>)
    ensures |r| == |ships|
    ensures forall i :: 0 <= i < |r| ==> LoadedAs(r[i], ships[i], i, ZeroAngles(ships[i].armament))
    ensures forall i, k :: 0 <= i < |r| && r[i].armament.Some? && 0 <= k < |r[i].armament.value| ==>
      r[i].armament.value[k].angle == 0.0
  {
    var r := seq(|ships|, i requires 0 <= i < |ships| => TemplateRowFor(ships[i], i, ZeroAngles(ships[i].armament), render));
    forall i | 0 <= i < |r| ensures LoadedAs(r[i], ships[i], i, ZeroAngles(ships[i].armament)) {
      TemplateRowForLoads(ships[i], i, ZeroAngles(ships[i].armament), render);
    }
    r
  }

  /** One entry of `exportFleetJSON`, with the file's key names. */
  datatype ShipDict = ShipDict(id: int, category: string, shipClass: string, length: real, width: real,
                               torpedoLaunchers: string, armament: string, armor: string,
                               speed: real, turnRadius: real, location: Offset,
                               displacement: real, bearing: real)

  /** The dictionary built from a template row: the key names change, nothing else. */
  function ToDict(row: TemplateRow): (d: ShipDict)
    ensures d.id == row.shipId && d.shipClass == row.shipClass && d.location == row.offset
    ensures d.torpedoLaunchers == row.torpedoText && d.armament == row.armamentText && d.armor == row.armorText
  {
    ShipDict(row.shipId, row.category, row.shipClass, row.length, row.width,
             row.torpedoText, row.armamentText, row.armorText, row.speed, row.turnRadius,
             row.offset, row.displacement, row.bearing)
  }

  /** `exportFleetJSON`: one dictionary per template row, in row order; `None` is
      the error answer of a failed query. */
  function ExportFleet(rows: Option<seq<TemplateRow>>): (r: Option<seq<ShipDict>>)
    ensures r.None? <==> rows.None?
    ensures r.Some? ==>
      (|r.value| == |rows.value| &&
       forall i :: 0 <= i < |r.value| ==> r.value[i] == ToDict(rows.value[i]))
  {
    match rows
    case None => None
    case Some(t) => Some(seq(|t|, i requires 0 <= i < |t| => ToDict(t[i])))
  }

  /** Exporting a freshly loaded template gives back the ships of the file, each
      at its place in the staggered grid; rows are read back in insertion order. */
  lemma ExportAfterLoad(ships: seq<Ship>, render: seq<Gun> -> string)
    ensures var out := ExportFleet(Some(LoadFleetV1(ships, render)));
      out.Some? && |out.value| == |ships| &&
      forall i :: 0 <= i < |ships| ==>
        var d := out.value[i];
        d.id == ships[i].id && d.category == ships[i].category && d.shipClass == ships[i].shipClass &&
        d.length == ships[i].length && d.width == ships[i].width && d.speed == ships[i].speed &&
        d.turnRadius == ships[i].turnRadius && d.location == Placement(i)
  {
  }

  /** A row of the position query: ship id, bearing and centroid. */
  datatype PositionRow = PositionRow(shipId: int, bearing: real, lon: real, lat: real)

  /** One `ship_status` entry. */
  datatype ShipStatus = ShipStatus(shipId: int, bearing: real, lon: real, lat: real)

  /** The `exportFleetPositionJSON` answer: the team name as fleet id and the ships. */
  datatype FleetStatus = FleetStatus(fleetId: string, shipStatus: seq<ShipStatus>)

  /** `exportFleetPositionJSON`: the fleet id is the team name and there is one
      status per row, in row order; `None` is the error answer. */
  function ExportFleetPosition(teamName: string, rows: Option<seq<PositionRow>>): (r: Option<FleetStatus>)
    ensures r.None? <==> rows.None?
    ensures r.Some? ==>
      (r.value.fleetId == teamName && |r.value.shipStatus| == |rows.value| &&
       forall i :: 0 <= i < |rows.value| ==>
         var p, s := rows.value[i], r.value.shipStatus[i];
         s.shipId == p.shipId && s.bearing == p.bearing && s.lon == p.lon && s.lat == p.lat)
  {
    match rows
    case None => None
    case Some(t) =>
      Some(FleetStatus(teamName, seq(|t|, i requires 0 <= i < |t| => ShipStatus(t[i].shipId, t[i].bearing, t[i].lon, t[i].lat))))
  }
}

=== FILE: interception.dfy ===
/** Planning one interception: which predicted point an interceptor class can
    reach in time, and which class in the inventory fires. */
module Interception {
  import opened Common
  import opened Numbers
  import opened MissileSpec
  import opened Trajectory
  import opened Inventory

  /** The strategy globals: `altruist`, `shootEarliest`, `safetyMargin` and
      `predictionCap`. */
  datatype Config = Config(altruist: bool, shootEarliest: bool, safetyMargin: int, predictionCap: int)

  /** The values the defender ships with. */
  const DefaultConfig: Config := Config(false, false, 3, 1000)

  /** Seconds kept in hand before launching: none when shooting as early as
      possible, `safetyMargin` otherwise. */
  function Buffer(cfg: Config): int
  {
    if cfg.shootEarliest then 0 else cfg.safetyMargin
  }

  type Distance = r: real | r >= 0.0

  /** The battery nearest to a point, with its `ST_3DDistance` from the point. */
  datatype Site = Site(pos: Point3, distance: Distance)

  /** What the defender asks PostGIS: the nearest battery to a point (`None` when
      there is no battery), the points of interest that are not batteries, and
      whether a point lies within a radius of a target. */
  datatype Geometry = Geometry(
    nearestBattery: Point3 -> Option<Site>,
    targets: seq<Point3>,
    within: (Point3, Point3, real) -> bool)

  /** The `WHERE` clause of the intercept query: the point is not underground, a
      battery exists, and an interceptor leaving `now + buffer` or later covers the
      distance by the point's time code. */
  predicate Reachable(p: Predicted, geo: Geometry, now: real, buffer: int, speed: real)
    requires speed > 0.0
  {
    p.pos.z >= 0.0 &&
    match geo.nearestBattery(p.pos)
    case None => false
    case Some(site) => p.timeCode as real - now - buffer as real >= site.distance / speed
  }

  /** The first reachable point of a trajectory. */
  function FirstReachable(traj: seq<Predicted>, geo: Geometry, now: real, buffer: int, speed: real): (r: Option<nat>)
    requires speed > 0.0
    ensures r.Some? ==> r.value < |traj| && Reachable(traj[r.value], geo, now, buffer, speed)
    ensures r.Some? ==> forall j :: 0 <= j < r.value ==> !Reachable(traj[j], geo, now, buffer, speed)
    ensures r.None? ==> forall j :: 0 <= j < |traj| ==> !Reachable(traj[j], geo, now, buffer, speed)
  {
    if |traj| == 0 then None
    else if Reachable(traj[0], geo, now, buffer, speed) then Some(0)
    else
      match FirstReachable(traj[1..], geo, now, buffer, speed)
      case None => None
      case Some(k) => Some(k + 1)
  }

  /** The last reachable point of a trajectory. */
  function LastReachable(traj: seq<Predicted>, geo: Geometry, now: real, buffer: int, speed: real): (r: Option<nat>)
    requires speed > 0.0
    ensures r.Some? ==> r.value < |traj| && Reachable(traj[r.value], geo, now, buffer, speed)
    ensures r.Some? ==> forall j :: r.value < j < |traj| ==> !Reachable(traj[j], geo, now, buffer, speed)
    ensures r.None? ==> forall j :: 0 <= j < |traj| ==> !Reachable(traj[j], geo, now, buffer, speed)
  {
    if |traj| == 0 then None
    else if Reachable(traj[|traj| - 1], geo, now, buffer, speed) then Some(|traj| - 1)
    else LastReachable(traj[..|traj| - 1], geo, now, buffer, speed)
  }

  /** `ORDER BY time_code ASC|DESC LIMIT 1` over the reachable points, on a
      trajectory whose time codes increase along it. */
  function ChoosePoint(traj: seq<Predicted>, geo: Geometry, now: real, cfg: Config, speed: real): (r: Option<nat>)
    requires speed > 0.0
    ensures r.Some? ==> r.value < |traj| && Reachable(traj[r.value], geo, now, Buffer(cfg), speed)
    ensures r.None? <==> forall j :: 0 <= j < |traj| ==> !Reachable(traj[j], geo, now, Buffer(cfg), speed)
  {
    if cfg.shootEarliest then FirstReachable(traj, geo, now, Buffer(cfg), speed)
    else LastReachable(traj, geo, now, Buffer(cfg), speed)
  }

  /** A fire solution: where to aim, when to launch, when the interceptor hits,
      and the battery it leaves from. */
  datatype Shot = Shot(aim: Point3, launch: real, impact: int, base: Point3)

  datatype Attempt = SpecMissing | Miss | Hit(shot: Shot)

  /** One pass of the interceptor loop for one inventory class. An unknown class
      leaves `fetchone()` empty and indexing it raises (`SpecMissing`). */
  function TryClass(name: string, traj: seq<Predicted>, geo: Geometry, now: real, cfg: Config): (r: Attempt)
    ensures r.SpecMissing? <==> SpecFor(name).None?
    ensures r.Hit? ==> r.shot.aim.z >= 0.0
    ensures r.Hit? ==> now + Buffer(cfg) as real <= r.shot.launch <= r.shot.impact as real
    ensures r.Hit? ==> exists i :: 0 <= i < |traj| && traj[i].pos == r.shot.aim && traj[i].timeCode == r.shot.impact
  {
    match SpecFor(name)
    case None => SpecMissing
    case Some(spec) =>
      var speed := InterceptSpeed(spec.speedCategory);
      match ChoosePoint(traj, geo, now, cfg, speed)
      case None => Miss
      case Some(k) =>
        var site := geo.nearestBattery(traj[k].pos).value;
        var launch := traj[k].timeCode as real - site.distance / speed;
        DistanceOverSpeed(site.distance, speed);
        Hit(Shot(traj[k].pos, launch, traj[k].timeCode, site.pos))
  }

  /** A non-negative distance takes a non-negative time at a positive speed. */
  lemma DistanceOverSpeed(d: real, speed: real)
    requires d >= 0.0 && speed > 0.0
    ensures d / speed >= 0.0
  {
  }

  datatype PlanResult = PlanFault | NoSolution | Fire(name: string, shot: Shot)

  /** The attempt of every class in a priority order, in that order. */
  function Attempts(order: seq<Stock>, traj: seq<Predicted>, geo: Geometry, now: real, cfg: Config): (r: seq<Attempt>)
    ensures |r| == |order|
    ensures forall j :: 0 <= j < |r| ==> r[j] == TryClass(order[j].name, traj, geo, now, cfg)
  {
    seq(|order|, j requires 0 <= j < |order| => TryClass(order[j].name, traj, geo, now, cfg))
  }

  /** The interceptor loop from position `i` on: the first class with a reachable
      point fires; an unknown class met before that aborts the plan. */
  function PlanFrom(order: seq<Stock>, attempts: seq<Attempt>, i: nat): (r: PlanResult)
    requires |attempts| == |order| && i <= |order|
    ensures r.Fire? ==>
      exists k :: i <= k < |order| && order[k].name == r.name &&
                  attempts[k] == Hit(r.shot) && (forall j :: i <= j < k ==> attempts[j] == Miss)
    ensures r.NoSolution? <==> forall j :: i <= j < |order| ==> attempts[j] == Miss
    ensures r.PlanFault? <==>
      exists k :: i <= k < |order| && attempts[k] == SpecMissing &&
                  (forall j :: i <= j < k ==> attempts[j] == Miss)
    decreases |order| - i
  {
    if i == |order| then NoSolution
    else if attempts[i].SpecMissing? then PlanFault
    else if attempts[i].Hit? then Fire(order[i].name, attempts[i].shot)
    else PlanFrom(order, attempts, i + 1)
  }

  /** The whole interceptor loop over a priority order. */
  function Plan(order: seq<Stock>, traj: seq<Predicted>, geo: Geometry, now: real, cfg: Config): (r: PlanResult)
    ensures r.Fire? ==>
      exists k :: 0 <= k < |order| && order[k].name == r.name &&
                  TryClass(order[k].name, traj, geo, now, cfg) == Hit(r.shot) &&
                  (forall j :: 0 <= j < k ==> TryClass(order[j].name, traj, geo, now, cfg) == Miss)
    ensures r.NoSolution? <==> forall j :: 0 <= j < |order| ==> TryClass(order[j].name, traj, geo, now, cfg) == Miss
    ensures r.PlanFault? <==>
      exists k :: 0 <= k < |order| && SpecFor(order[k].name).None? &&
                  (forall j :: 0 <= j < k ==> TryClass(order[j].name, traj, geo, now, cfg) == Miss)
  {
    PlanFrom(order, Attempts(order, traj, geo, now, cfg), 0)
  }

  /** A plan over a priority order fires a class the inventory holds with stock
      left. */
  lemma PlanUsesHeldClass(inv: seq<Stock>, order: seq<Stock>, traj: seq<Predicted>, geo: Geometry, now: real, cfg: Config)
    requires IsPriorityOrder(order, inv)
    requires Plan(order, traj, geo, now, cfg).Fire?
    ensures exists j :: 0 <= j < |inv| && inv[j].name == Plan(order, traj, geo, now, cfg).name && inv[j].count > 0
  {
    var name := Plan(order, traj, geo, now, cfg).name;
    var k :| 0 <= k < |order| && order[k].name == name;
    PriorityOrderRows(order, inv, k);
    var j :| 0 <= j < |inv| && inv[j] == order[k];
  }

  /** A plan that fires launches no earlier than `now` plus the buffer and no
      later than impact, at a point above ground on the predicted path. */
  lemma PlanShotBounds(order: seq<Stock>, traj: seq<Predicted>, geo: Geometry, now: real, cfg: Config)
    requires Plan(order, traj, geo, now, cfg).Fire?
    ensures var shot := Plan(order, traj, geo, now, cfg).shot;
      shot.aim.z >= 0.0 && now + Buffer(cfg) as real <= shot.launch <= shot.impact as real
  {
    var r := Plan(order, traj, geo, now, cfg);
    var i :| 0 <= i < |order| && order[i].name == r.name && TryClass(order[i].name, traj, geo, now, cfg) == Hit(r.shot);
  }

  /** On a predicted trajectory, whose time codes increase, the chosen point is the
      latest reachable one by default and the earliest under `shootEarliest`. */
  lemma ChoosePointPolicy(cur: Point3, v: Point3, now: real, cap: int, geo: Geometry, cfg: Config, speed: real, j: int)
    requires speed > 0.0
    requires ChoosePoint(Predict(cur, v, now, cap), geo, now, cfg, speed).Some?
    requires 0 <= j < |Predict(cur, v, now, cap)|
    requires Reachable(Predict(cur, v, now, cap)[j], geo, now, Buffer(cfg), speed)
    ensures var traj := Predict(cur, v, now, cap);
      var k := ChoosePoint(traj, geo, now, cfg, speed).value;
      if cfg.shootEarliest then traj[k].timeCode <= traj[j].timeCode else traj[j].timeCode <= traj[k].timeCode
  {
    var traj := Predict(cur, v, now, cap);
    var k := ChoosePoint(traj, geo, now, cfg, speed).value;
    if k < j {
      PredictTimesIncrease(cur, v, now, cap, k, j);
    } else if j < k {
      PredictTimesIncrease(cur, v, now, cap, j, k);
    }
  }
}

=== FILE: inventory.dfy ===
/** The `missile_inventory` table: interceptor classes and how many of each the
    defender still holds. */
module Inventory {
  /** One row of `missile_inventory`. */
  datatype Stock = Stock(name: string, count: int)

  /** Rows come from the keys of a JSON object, so no name repeats. */
  predicate DistinctNames(inv: seq<Stock>)
  {
    forall i, j :: 0 <= i < j < |inv| ==> inv[i].name != inv[j].name
  }

  predicate HasName(inv: seq<Stock>, name: string)
  {
    exists i :: 0 <= i < |inv| && inv[i].name == name
  }

  /** `SELECT SUM(missile_count)`, reading an empty sum as 0. */
  function Total(inv: seq<Stock>): int
  {
    if |inv| == 0 then 0 else inv[0].count + Total(inv[1..])
  }

  /** The inventory load of `getRegion`: one row per arsenal key other than
      "total", holding that key's count, in the order of the keys. */
  function Load(arsenal: seq<(string, int)>): (r: seq<Stock>)
    ensures forall i :: 0 <= i < |r| ==> r[i].name != "total" && (r[i].name, r[i].count) in arsenal
    ensures forall e :: e in arsenal && e.0 != "total" ==> Stock(e.0, e.1) in r
  {
    if |arsenal| == 0 then []
    else
      var rest := Load(arsenal[1..]);
      assert forall e :: e in arsenal[1..] ==> e in arsenal;
      if arsenal[0].0 == "total" then rest else [Stock(arsenal[0].0, arsenal[0].1)] + rest
  }

  /** Distinct arsenal keys give an inventory without repeated names. */
  lemma {:induction false} LoadDistinct(arsenal: seq<(string, int)>)
    requires forall i, j :: 0 <= i < j < |arsenal| ==> arsenal[i].0 != arsenal[j].0
    ensures DistinctNames(Load(arsenal))
  {
    if |arsenal| > 0 {
      LoadDistinct(arsenal[1..]);
      var rest := Load(arsenal[1..]);
      forall i | 0 <= i < |rest|
        ensures rest[i].name != arsenal[0].0
      {
        var k :| 0 <= k < |arsenal[1..]| && arsenal[1..][k] == (rest[i].name, rest[i].count);
        assert arsenal[k + 1].0 == rest[i].name;
      }
    }
  }

  /** `UPDATE ... SET missile_count = missile_count - 1 WHERE missile_name = name`. */
  function Decrement(inv: seq<Stock>, name: string): (r: seq<Stock>)
    ensures |r| == |inv|
    ensures forall i :: 0 <= i < |r| ==>
      r[i].name == inv[i].name && r[i].count == (if inv[i].name == name then inv[i].count - 1 else inv[i].count)
  {
    if |inv| == 0 then []
    else
      [if inv[0].name == name then Stock(name, inv[0].count - 1) else inv[0]] + Decrement(inv[1..], name)
  }

  /** With names distinct, decrementing a name held in the table lowers the total
      by exactly one; a name not in the table changes nothing. */
  lemma {:induction false} DecrementTotal(inv: seq<Stock>, name: string)
    requires DistinctNames(inv)
    ensures Total(Decrement(inv, name)) == if HasName(inv, name) then Total(inv) - 1 else Total(inv)
  {
    if |inv| > 0 {
      DecrementTotal(inv[1..], name);
      var r := Decrement(inv, name);
      assert r[1..] == Decrement(inv[1..], name);
      if inv[0].name == name {
        assert !HasName(inv[1..], name);
        DecrementAbsent(inv[1..], name);
      } else {
        assert HasName(inv, name) <==> HasName(inv[1..], name) by {
          if HasName(inv, name) {
            var k :| 0 <= k < |inv| && inv[k].name == name;
            assert inv[1..][k - 1].name == name;
          }
          if HasName(inv[1..], name) {
            var k :| 0 <= k < |inv[1..]| && inv[1..][k].name == name;
            assert inv[k + 1].name == name;
          }
        }
      }
    }
  }

  /** Decrementing an absent name leaves the table as it was. */
  lemma DecrementAbsent(inv: seq<Stock>, name: string)
    requires !HasName(inv, name)
    ensures Decrement(inv, name) == inv
  {
    assert forall i :: 0 <= i < |inv| ==> inv[i].name != name;
  }

  /** The rows `WHERE missile_count > 0`, in table order. */
  function Positive(inv: seq<Stock>): (r: seq<Stock>)
    ensures forall s :: s in r <==> s in inv && s.count > 0
  {
    if |inv| == 0 then []
    else if inv[0].count > 0 then [inv[0]] + Positive(inv[1..])
    else Positive(inv[1..])
  }

  predicate SortedDesc(rows: seq<Stock>)
  {
    forall i, j :: 0 <= i < j < |rows| ==> rows[i].count >= rows[j].count
  }

  /** A result of `WHERE missile_count > 0 ORDER BY missile_count DESC`: the rows
      with a positive count, each once, largest count first. SQL leaves the order
      among equal counts open, so any such order qualifies. */
  predicate IsPriorityOrder(order: seq<Stock>, inv: seq<Stock>)
  {
    multiset(order) == multiset(Positive(inv)) && SortedDesc(order)
  }

  /** Insert a row into a descending list after every row with a larger count
      and before the first with a count no larger. */
  function Insert(x: Stock, rows: seq<Stock>): (r: seq<Stock>)
    requires SortedDesc(rows)
    ensures SortedDesc(r)
    ensures multiset(r) == multiset(rows) + multiset{x}
  {
    if |rows| == 0 then [x]
    else if rows[0].count > x.count then
      var rest := Insert(x, rows[1..]);
      assert rows == [rows[0]] + rows[1..];
      assert multiset(rest) == multiset(rows[1..] + [x]);
      CountsBounded(rest, rows[1..] + [x], rows[0].count);
      [rows[0]] + rest
    else [x] + rows
  }

  /** A rearrangement of rows all at most `bound` has all rows at most `bound`. */
  lemma CountsBounded(a: seq<Stock>, b: seq<Stock>, bound: int)
    requires multiset(a) == multiset(b)
    requires forall k :: 0 <= k < |b| ==> b[k].count <= bound
    ensures forall k :: 0 <= k < |a| ==> a[k].count <= bound
  {
    forall k | 0 <= k < |a|
      ensures a[k].count <= bound
    {
      assert a[k] in multiset(b);
      var m :| 0 <= m < |b| && b[m] == a[k];
    }
  }

  /** One concrete priority order: insertion sort of the positive rows, ties kept
      in table order. */
  function PriorityOrder(inv: seq<Stock>): (r: seq<Stock>)
    ensures IsPriorityOrder(r, inv)
  {
    SortRows(Positive(inv))
  }

  /** Two classes with the same count keep their table order. */
  lemma PriorityOrderTieExample(a: Stock, b: Stock)
    requires a.count == b.count > 0
    ensures PriorityOrder([a, b]) == [a, b]
  {
    assert [a, b][1..] == [b];
    assert [b][1..] == [];
    assert Positive([b]) == [b];
    assert Positive([a, b]) == [a, b];
    assert SortRows([b]) == [b];
  }

  function SortRows(rows: seq<Stock>): (r: seq<Stock>)
    ensures SortedDesc(r)
    ensures multiset(r) == multiset(rows)
  {
    if |rows| == 0 then []
    else
      assert rows == [rows[0]] + rows[1..];
      Insert(rows[0], SortRows(rows[1..]))
  }

  /** Every row of a priority order is a row of the inventory with stock left. */
  lemma PriorityOrderRows(order: seq<Stock>, inv: seq<Stock>, i: int)
    requires IsPriorityOrder(order, inv)
    requires 0 <= i < |order|
    ensures order[i] in inv && order[i].count > 0
  {
    assert order[i] in multiset(order);
  }
}

=== FILE: missile_spec.dfy ===
/** The `missile_spec_key` table and the speed categories of the defender. */
module MissileSpec {
  import opened Common
  import opened Numbers

  /** One row of `missile_spec_key`: a missile class with its speed and blast
      radius categories. */
  datatype Spec = Spec(className: string, speedCategory: int, radiusCategory: int)

  /** The eleven classes the defender creates its spec table with. */
  const SpecTable: seq<Spec> := [
    Spec("Atlas", 1, 7),
    Spec("Harpoon", 2, 8),
    Spec("Hellfire", 3, 7),
    Spec("Javelin", 4, 7),
    Spec("Minuteman", 5, 9),
    Spec("Patriot", 6, 6),
    Spec("Peacekeeper", 7, 6),
    Spec("SeaSparrow", 8, 5),
    Spec("Titan", 8, 5),
    Spec("Tomahawk", 9, 6),
    Spec("Trident", 9, 9)
  ]

  /** `WHERE classification_label = className` over some rows: the first match. */
  function Lookup(rows: seq<Spec>, className: string): (r: Option<Spec>)
    ensures r.Some? <==> exists i :: 0 <= i < |rows| && rows[i].className == className
    ensures r.Some? ==> r.value in rows && r.value.className == className
  {
    if |rows| == 0 then None
    else if rows[0].className == className then Some(rows[0])
    else
      var rest := Lookup(rows[1..], className);
      assert forall i :: 1 <= i < |rows| ==> rows[i] == rows[1..][i - 1];
      rest
  }

  /** The spec row of a class, `None` when the class is unknown and the query
      returns no row. */
  function SpecFor(className: string): (r: Option<Spec>)
    ensures r.Some? <==> exists i :: 0 <= i < |SpecTable| && SpecTable[i].className == className
    ensures r.Some? ==> r.value in SpecTable && r.value.className == className
  {
    Lookup(SpecTable, className)
  }

  /** Every class in the table has a speed category from 1 to 9 and a blast radius
      category from 5 to 9. */
  lemma SpecTableRanges(s: Spec)
    requires s in SpecTable
    ensures 1 <= s.speedCategory <= 9 && 5 <= s.radiusCategory <= 9
  {
  }

  /** Labels in the table are pairwise distinct, so a lookup finds the only row
      with that class name. */
  lemma SpecTableLabelsDistinct()
    ensures forall i, j :: 0 <= i < j < |SpecTable| ==> SpecTable[i].className != SpecTable[j].className
  {
  }

  /** The speed of a category in metres per second, the first step of
      `convertSpeedMetersToDegree`. */
  function SpeedMeters(category: int): (r: real)
    ensures 24975.0 <= r <= 49950.0
    ensures category <= 0 || category >= 9 ==> r == 49950.0
    ensures 1 <= category <= 8 ==>
      r == [24975.0, 27750.0, 33300.0, 36075.0, 38850.0, 41625.0, 44400.0, 47175.0][category - 1]
  {
    if category == 1 then 24975.0
    else if category == 2 then 27750.0
    else if category == 3 then 33300.0
    else if category == 4 then 36075.0
    else if category == 5 then 38850.0
    else if category == 6 then 41625.0
    else if category == 7 then 44400.0
    else if category == 8 then 47175.0
    else 49950.0
  }

  /** Within the categories the table uses, a higher category is never slower. */
  lemma SpeedMetersMonotone(a: int, b: int)
    requires 1 <= a <= b
    ensures SpeedMeters(a) <= SpeedMeters(b)
  {
  }

  /** `convertSpeedMetersToDegree`: the speed in degrees per second. The source
      formats it with `str`; the model keeps the number. */
  function InterceptSpeed(category: int): (r: real)
    ensures r > 0.0
    ensures r * MetersPerDegree == SpeedMeters(category)
  {
    MetersToDegreesNA(SpeedMeters(category))
  }

  /** `simCatRadiusConversion`: metres per blast radius category. */
  const RadiusMetersPerCategory: int := 100

  /** `radius_category * metersToDegreesNA(simCatRadiusConversion)`: the blast
      radius of a class in degrees. */
  function DangerRadius(s: Spec): (r: real)
    ensures r * MetersPerDegree == (s.radiusCategory * RadiusMetersPerCategory) as real
    ensures s in SpecTable ==> r > 0.0
  {
    s.radiusCategory as real * MetersToDegreesNA(RadiusMetersPerCategory as real)
  }
}

=== FILE: number_text.dfy ===
/** Python's `str()` of an integer and what `int()` and `float()` make of
    particular strings: the readings the modules that parse typed-in numbers
    rely on. */
module NumberText {
  import opened Common
  import opened Numbers

  /** A run of digits behind a minus sign is in the integer syntax. */
  lemma NegativeDigits(d: string, t: string)
    requires |d| > 0 && AllDigits(d) && t == "-" + d
    ensures SignedGrouped(t) == Some(-(DigitsValue(d) as int))
  {
    GroupedValueDigits(d);
    SignedGroupedMinus(d);
  }

  /** A minus sign and digits have no whitespace to strip. */
  lemma StripNegative(d: string, t: string)
    requires |d| > 0 && AllDigits(d) && t == "-" + d
    ensures Strip(t) == t
  {
    assert t[|t| - 1] == d[|d| - 1];
    assert !IsSpace(t[0]) && !IsSpace(t[|t| - 1]);
    StripUnpadded(t);
  }

  /** A minus sign and digits read as the negated value under `int()`. */
  lemma NegativeText(d: string, t: string)
    requires |d| > 0 && AllDigits(d) && t == "-" + d
    ensures ParseInt(t) == Some(-(DigitsValue(d) as int))
  {
    StripNegative(d, t);
    NegativeDigits(d, t);
  }

  /** A run of digits worth `v` reads as `v` under `int()`. */
  lemma DigitsText(d: string, v: nat)
    requires |d| > 0 && AllDigits(d) && DigitsValue(d) == v
    ensures ParseInt(d) == Some(v as int)
  {
    IntDigits(d);
  }

  /** Reading back the digits of a natural number gives the number. */
  lemma NatTextRoundTrip(n: int)
    requires n >= 0
    ensures ParseInt(IntText(n)) == Some(n)
  {
    NatTextValue(n);
    DigitsText(NatText(n), n);
  }

  /** Reading back a minus sign and the digits of a natural number gives the
      negative number. */
  lemma NegativeTextRoundTrip(n: int)
    requires n < 0
    ensures ParseInt(IntText(n)) == Some(n)
  {
    var m: nat := -n;
    var d := NatText(m);
    NatTextValue(m);
    assert DigitsValue(d) == m;
    NegativeText(d, IntText(n));
  }

  /** `int(str(n)) == n`: reading back the text of any integer gives the integer. */
  lemma IntTextRoundTrip(n: int)
    ensures ParseInt(IntText(n)) == Some(n)
  {
    if n < 0 {
      NegativeTextRoundTrip(n);
    } else {
      NatTextRoundTrip(n);
    }
  }

  /** A string with no whitespace at its ends that is neither grouped digits nor
      a sign before them is rejected by `int()`. */
  lemma IntRejects(t: string)
    requires |t| > 0 ==> !IsSpace(t[0]) && !IsSpace(t[|t| - 1])
    requires !Grouped(t) && !(|t| > 1 && IsSign(t[0]) && Grouped(t[1..]))
    ensures ParseInt(t) == None
  {
    StripUnpadded(t);
  }

  /** Whitespace before a number is ignored by `int()`. */
  lemma ParseIntLeadingSpace()
    ensures ParseInt(" 7") == Some(7)
  {
    var s := " 7";
    assert s == " " + "7" + "";
    assert ParseInt("7") == Some(7) by { DigitsText("7", 7); }
    IntIgnoresWhitespace(" ", "7", "");
  }

  /** A minus sign before a digit: `int("-7") == -7`. */
  lemma NegativeSevenExample()
    ensures ParseInt("-7") == Some(-7)
  {
    var t := "-7";
    assert t == "-" + "7";
    NegativeText("7", t);
  }

  /** A newline after a negative number is ignored by `int()`. */
  lemma ParseIntTrailingNewline()
    ensures ParseInt("-7\n") == Some(-7)
  {
    NegativeSevenExample();
    var s := "-7\n";
    assert s == "" + "-7" + "\n";
    IntIgnoresWhitespace("", "-7", "\n");
  }

  /** A single underscore may stand between two digits: "1_0" is worth 10. */
  lemma GroupedExample()
    ensures Grouped("1_0") && GroupedValue("1_0") == 10
  {
    assert "1_0"[2..] == "0";
    assert Grouped("1_0");
    assert Ungroup("1_0") == "10";
    assert DigitsValue("10") == 10 by {
      assert "10"[..1] == "1";
      assert "1"[..0] == "";
    }
  }

  /** Grouped digits worth `v` read as `v` under `int()`. */
  lemma GroupedText(g: string, v: nat)
    requires Grouped(g) && GroupedValue(g) == v
    ensures ParseInt(g) == Some(v as int)
  {
    GroupedDigits(g);
    assert !IsSpace(g[0]) && !IsSpace(g[|g| - 1]);
    StripUnpadded(g);
  }

  /** A single underscore between digits is accepted by `int()`. */
  lemma ParseIntUnderscore()
    ensures ParseInt("1_0") == Some(10)
  {
    var s := "1_0";
    assert ParseInt(s) == Some(10) by {
      GroupedExample();
      GroupedText(s, 10);
    }
  }

  /** An underscore doubled, leading or trailing is rejected by `int()`. */
  lemma ParseIntRejectsUnderscores()
    ensures ParseInt("1__0") == None && ParseInt("_1") == None && ParseInt("1_") == None
  {
    assert "1__0"[1..] == "__0" && "1__0"[2..] == "_0";
    IntRejects("1__0");
    IntRejects("_1");
    assert "1_"[1..] == "_";
    IntRejects("1_");
  }

  /** A decimal point, an empty string and a lone sign are rejected by `int()`. */
  lemma ParseIntRejectsNonIntegers()
    ensures ParseInt("1.0") == None && ParseInt("") == None && ParseInt("-") == None
  {
    assert "1.0"[1..] == ".0";
    IntRejects("1.0");
    IntRejects("");
    IntRejects("-");
  }

  /** A mantissa is read as the whole part before its first decimal point and
      the fractional part after it. */
  lemma MantissaPoint(whole: string, frac: string)
    requires '.' !in whole
    ensures Mantissa(whole + "." + frac) == DecimalParts(whole, frac)
  {
    var m := whole + "." + frac;
    FirstOfAt(whole, frac, '.');
    assert m[..|whole|] == whole && m[|whole| + 1..] == frac;
  }

  /** A mantissa without a decimal point is all whole part. */
  lemma MantissaNoPoint(whole: string)
    requires '.' !in whole
    ensures Mantissa(whole) == DecimalParts(whole, "")
  {
    FirstOfAbsent(whole, '.');
  }

  /** Without an exponent marker, `float()` reads just the mantissa. */
  lemma FloatNoExponent(m: string)
    requires 'e' !in m && 'E' !in m
    ensures UnsignedFloat(m) == Mantissa(m)
  {
    FirstExponentAbsent(m);
  }

  /** An exponent scales the mantissa before the first marker by the power of
      ten after it; the text is rejected when either part is. */
  lemma FloatExponent(m: string, e: string)
    requires 'e' !in m && 'E' !in m
    ensures UnsignedFloat(m + "e" + e) ==
      if Mantissa(m).Some? && SignedGrouped(e).Some?
      then Some(Scale(Mantissa(m).value, SignedGrouped(e).value))
      else None
  {
    var u := m + "e" + e;
    FirstExponentAt(m, e);
    assert u[..|m|] == m && u[|m| + 1..] == e;
  }

  /** The exponent form with a mantissa worth `m` and an exponent worth `e` is
      worth `m` times ten to the `e`. */
  lemma FloatExponentValue(mant: string, exp: string, m: real, e: int)
    requires 'e' !in mant && 'E' !in mant
    requires Mantissa(mant) == Some(m) && SignedGrouped(exp) == Some(e)
    ensures UnsignedFloat(mant + "e" + exp) == Some(Scale(m, e))
  {
    FloatExponent(mant, exp);
  }

  /** Plain digits on both sides of a decimal point are worth the whole digits
      plus the fraction the digits after the point spell. */
  lemma DecimalDigits(whole: string, frac: string)
    requires |whole| > 0 && AllDigits(whole) && |frac| > 0 && AllDigits(frac)
    ensures DecimalParts(whole, frac) == Some(DigitsValue(whole) as real + FractionValue(frac))
  {
    GroupedValueDigits(whole);
    GroupedValueDigits(frac);
    UngroupDigits(frac);
  }

  /** `float()` of a string with no whitespace at its ends and no leading sign is
      the unsigned reading of the whole string. */
  lemma FloatUnpadded(s: string)
    requires |s| > 0 && !IsSpace(s[0]) && !IsSpace(s[|s| - 1]) && !IsSign(s[0])
    ensures ParseFloat(s) == UnsignedFloat(s)
  {
    StripUnpadded(s);
  }

  /** A decimal point splits whole from fractional digits: "2.5" is worth 2.5. */
  lemma MantissaExample()
    ensures Mantissa("2.5") == Some(2.5)
  {
    var m := "2.5";
    assert m == "2" + "." + "5";
    assert Mantissa(m) == DecimalParts("2", "5") by { MantissaPoint("2", "5"); }
    assert DecimalParts("2", "5") == Some(2.5) by {
      DecimalDigits("2", "5");
      assert DigitsValue("2") == 2;
      assert FractionValue("5") == 0.5;
    }
  }

  /** An exponent scales the mantissa: "2.5e1" is worth 25. */
  lemma ExponentExample()
    ensures UnsignedFloat("2.5e1") == Some(25.0)
  {
    assert "2.5e1" == "2.5" + "e" + "1";
    MantissaExample();
    SignedDigits("1");
    assert Scale(2.5, 1) == 25.0;
    FloatExponentValue("2.5", "1", 2.5, 1);
  }

  /** `float("2.5e1") == 25.0`. */
  lemma ParseFloatExponent()
    ensures ParseFloat("2.5e1") == Some(25.0)
  {
    FloatUnpadded("2.5e1");
    ExponentExample();
  }

  /** A whole part may be missing: ".5" is worth 0.5. */
  lemma BarePointExample()
    ensures UnsignedFloat(".5") == Some(0.5)
  {
    assert ".5" == "" + "." + "5";
    MantissaPoint("", "5");
    GroupedValueDigits("5");
    UngroupDigits("5");
    FloatNoExponent(".5");
  }

  /** Either side of the decimal point may be empty, and whitespace around a
      float is ignored: `float(" .5") == 0.5`. */
  lemma ParseFloatBarePoint()
    ensures ParseFloat(" .5") == Some(0.5)
  {
    var s := " .5";
    assert s == " " + ".5" + "";
    assert ParseFloat(".5") == Some(0.5) by {
      FloatUnpadded(".5");
      BarePointExample();
    }
    FloatIgnoresWhitespace(" ", ".5", "");
  }

  /** A fractional part may be missing and underscores may group the digits:
      "1_0." is worth 10. */
  lemma TrailingPointExample()
    ensures UnsignedFloat("1_0.") == Some(10.0)
  {
    var u := "1_0.";
    assert u == "1_0" + "." + "";
    assert Mantissa(u) == DecimalParts("1_0", "") by { MantissaPoint("1_0", ""); }
    assert DecimalParts("1_0", "") == Some(10.0) by { GroupedExample(); }
    assert UnsignedFloat(u) == Mantissa(u) by { FloatNoExponent(u); }
  }

  /** Underscores between digits are accepted by `float()` too, and a point may
      end the number: `float("1_0.") == 10.0`. */
  lemma ParseFloatUnderscore()
    ensures ParseFloat("1_0.") == Some(10.0)
  {
    FloatUnpadded("1_0.");
    TrailingPointExample();
  }

  /** An exponent marker needs digits after it: `float("1e")` is rejected. */
  lemma ParseFloatBareExponent()
    ensures ParseFloat("1e") == None
  {
    assert UnsignedFloat("1e") == None by {
      assert "1e" == "1" + "e" + "";
      FloatExponent("1", "");
    }
    FloatUnpadded("1e");
  }

  /** A point needs digits on one side at least: `float(".")` is rejected. */
  lemma ParseFloatLonePoint()
    ensures ParseFloat(".") == None
  {
    assert UnsignedFloat(".") == None by {
      assert "." == "" + "." + "";
      MantissaPoint("", "");
      FloatNoExponent(".");
    }
    FloatUnpadded(".");
  }

  /** At most one decimal point: what follows the first one in "1.2.3" is no
      run of digits, so it is no float. */
  lemma TwoPointsExample()
    ensures UnsignedFloat("1.2.3") == None
  {
    assert "1.2.3" == "1" + "." + "2.3";
    MantissaPoint("1", "2.3");
    assert "2.3"[1..] == ".3";
    assert !Grouped("2.3");
    FloatNoExponent("1.2.3");
  }

  /** `float("1.2.3")` is rejected. */
  lemma ParseFloatTwoPoints()
    ensures ParseFloat("1.2.3") == None
  {
    FloatUnpadded("1.2.3");
    TwoPointsExample();
  }
}

=== FILE: numbers.dfy ===
/** Number parsing, rounding and unit conversions as the Python code and the
    PostgreSQL columns perform them, over exact reals. */
module Numbers {
  import opened Common
  import Strings

  predicate IsDigit(c: char) { '0' <= c <= '9' }

  predicate AllDigits(s: string) { forall i :: 0 <= i < |s| ==> IsDigit(s[i]) }

  function Pow10(n: nat): (r: nat)
    ensures r >= 1
  {
    if n == 0 then 1 else 10 * Pow10(n - 1)
  }

  /** Value of a run of decimal digits, most significant first. */
  function DigitsValue(s: string): nat
    requires AllDigits(s)
    decreases |s|
  {
    if |s| == 0 then 0
    else DigitsValue(s[..|s| - 1]) * 10 + ((s[|s| - 1] as int) - ('0' as int))
  }

  predicate IsSign(c: char) { c == '-' || c == '+' }

  /** Python's `str.isspace`: the characters `int()` and `float()` ignore at both
      ends of their argument. */
  predicate IsSpace(c: char)
  {
    c == ' ' || '\t' <= c <= '\r' || '\U{1C}' <= c <= '\U{1F}' || c == '\U{85}' || c == '\U{A0}' ||
    c == '\U{1680}' || '\U{2000}' <= c <= '\U{200A}' || c == '\U{2028}' || c == '\U{2029}' ||
    c == '\U{202F}' || c == '\U{205F}' || c == '\U{3000}'
  }

  predicate AllSpace(s: string) { forall i :: 0 <= i < |s| ==> IsSpace(s[i]) }

  /** `s.lstrip()`: the longest suffix of `s` that does not start with whitespace. */
  function StripLeft(s: string): (r: string)
    ensures |r| <= |s| && r == s[|s| - |r|..]
    ensures |r| > 0 ==> !IsSpace(r[0])
    decreases |s|
  {
    if |s| > 0 && IsSpace(s[0]) then StripLeft(s[1..]) else s
  }

  /** `s.rstrip()`: the longest prefix of `s` that does not end with whitespace. */
  function StripRight(s: string): (r: string)
    ensures |r| <= |s| && r == s[..|r|]
    ensures |r| > 0 ==> !IsSpace(r[|r| - 1])
    decreases |s|
  {
    if |s| > 0 && IsSpace(s[|s| - 1]) then StripRight(s[..|s| - 1]) else s
  }

  /** `s.strip()`: whitespace removed from both ends. */
  function Strip(s: string): (r: string)
    ensures |r| > 0 ==> !IsSpace(r[0]) && !IsSpace(r[|r| - 1])
  {
    var l := StripLeft(s);
    var r := StripRight(l);
    assert |r| > 0 ==> r[0] == l[0];
    r
  }

  /** `lstrip()` removes nothing but whitespace: a string it empties is all
      whitespace. */
  lemma {:induction false} StripLeftEmpty(s: string)
    requires StripLeft(s) == ""
    ensures AllSpace(s)
    decreases |s|
  {
    if |s| > 0 {
      StripLeftEmpty(s[1..]);
      assert forall i :: 1 <= i < |s| ==> s[i] == s[1..][i - 1];
    }
  }

  /** Leading whitespace does not change what `lstrip()` keeps. */
  lemma {:induction false} StripLeftSpaces(pre: string, u: string)
    requires AllSpace(pre)
    ensures StripLeft(pre + u) == StripLeft(u)
    decreases |pre|
  {
    if |pre| > 0 {
      assert (pre + u)[1..] == pre[1..] + u;
      StripLeftSpaces(pre[1..], u);
    } else {
      assert pre + u == u;
    }
  }

  /** Trailing whitespace does not change what `rstrip()` keeps. */
  lemma {:induction false} StripRightSpaces(u: string, post: string)
    requires AllSpace(post)
    ensures StripRight(u + post) == StripRight(u)
    decreases |post|
  {
    if |post| > 0 {
      var x := u + post;
      assert x[..|x| - 1] == u + post[..|post| - 1];
      StripRightSpaces(u, post[..|post| - 1]);
    } else {
      assert u + post == u;
    }
  }

  /** Once `lstrip()` has reached a character that is not whitespace, what follows
      is kept whatever it is. */
  lemma {:induction false} StripLeftAppend(s: string, post: string)
    requires StripLeft(s) != ""
    ensures StripLeft(s + post) == StripLeft(s) + post
    decreases |s|
  {
    if IsSpace(s[0]) {
      assert (s + post)[1..] == s[1..] + post;
      StripLeftAppend(s[1..], post);
    }
  }

  /** Two runs of whitespace make one. */
  lemma AllSpaceAppend(a: string, b: string)
    requires AllSpace(a) && AllSpace(b)
    ensures AllSpace(a + b)
  {
    forall i | 0 <= i < |a + b|
      ensures IsSpace((a + b)[i])
    {
      if i >= |a| {
        assert (a + b)[i] == b[i - |a|];
      }
    }
  }

  /** Whitespace added around a string changes nothing `strip()` keeps. */
  lemma StripAbsorbs(pre: string, s: string, post: string)
    requires AllSpace(pre) && AllSpace(post)
    ensures Strip(pre + s + post) == Strip(s)
  {
    var sp := s + post;
    assert pre + s + post == pre + sp;
    StripLeftSpaces(pre, sp);
    var l := StripLeft(s);
    if l != "" {
      StripLeftAppend(s, post);
      StripRightSpaces(l, post);
    } else {
      StripLeftEmpty(s);
      AllSpaceAppend(s, post);
      StripLeftSpaces(sp, "");
      assert sp + "" == sp;
    }
  }

  /** Whitespace around a string whose ends are not whitespace is exactly what
      `strip()` removes. */
  lemma StripPadded(pre: string, s: string, post: string)
    requires AllSpace(pre) && AllSpace(post)
    requires |s| > 0 ==> !IsSpace(s[0]) && !IsSpace(s[|s| - 1])
    ensures Strip(pre + s + post) == s
  {
    StripAbsorbs(pre, s, post);
  }

  /** A string whose ends are not whitespace is left alone by `strip()`. */
  lemma StripUnpadded(s: string)
    requires |s| > 0 ==> !IsSpace(s[0]) && !IsSpace(s[|s| - 1])
    ensures Strip(s) == s
  {
    assert "" + s + "" == s;
    StripPadded("", s, "");
  }

  /** Digits in which single underscores may stand between two digits: the digit
      syntax `int()` and `float()` accept since Python 3.6. */
  predicate Grouped(s: string)
    decreases |s|
  {
    |s| > 0 && IsDigit(s[0]) &&
    (|s| == 1 || Grouped(s[1..]) || (|s| > 2 && s[1] == '_' && Grouped(s[2..])))
  }

  /** The characters of `s` other than underscores, in order. */
  function Ungroup(s: string): (r: string)
    ensures |r| <= |s|
    ensures '_' !in s ==> r == s
  {
    if |s| == 0 then []
    else (if s[0] == '_' then [] else [s[0]]) + Ungroup(s[1..])
  }

  /** A grouped run holds only digits and underscores, and dropping the
      underscores leaves one or more digits. */
  lemma {:induction false} GroupedDigits(s: string)
    requires Grouped(s)
    ensures |Ungroup(s)| > 0 && AllDigits(Ungroup(s))
    ensures forall i :: 0 <= i < |s| ==> IsDigit(s[i]) || s[i] == '_'
    decreases |s|
  {
    if |s| > 1 {
      var t := s[1..];
      if Grouped(t) {
        GroupedDigits(t);
      } else {
        GroupedDigits(t[1..]);
        assert Ungroup(t) == Ungroup(t[1..]);
      }
      assert forall i :: 1 <= i < |s| ==> s[i] == t[i - 1];
    }
  }

  /** A plain run of digits is grouped. */
  lemma {:induction false} DigitsGrouped(s: string)
    requires |s| > 0 && AllDigits(s)
    ensures Grouped(s)
    decreases |s|
  {
    if |s| > 1 {
      DigitsGrouped(s[1..]);
    }
  }

  /** The number a grouped run of digits denotes. */
  function GroupedValue(s: string): nat
    requires Grouped(s)
  {
    GroupedDigits(s);
    DigitsValue(Ungroup(s))
  }

  /** An optional sign, then grouped digits: the integer syntax of `int()` once the
      surrounding whitespace is gone, and the syntax of a float's exponent. */
  function SignedGrouped(t: string): Option<int>
  {
    if |t| > 1 && IsSign(t[0]) && Grouped(t[1..]) then
      Some(if t[0] == '-' then -(GroupedValue(t[1..]) as int) else GroupedValue(t[1..]) as int)
    else if Grouped(t) then Some(GroupedValue(t) as int)
    else None
  }

  /** Python's `int(s)` on a string in base 10: surrounding whitespace, an optional
      sign, then digits with single underscores allowed between them. `None` stands
      for the `ValueError` Python raises. */
  function ParseInt(s: string): Option<int>
  {
    SignedGrouped(Strip(s))
  }

  /** The digit character of `d`. */
  function DigitChar(d: nat): (c: char)
    requires d < 10
    ensures IsDigit(c) && (c as int) - ('0' as int) == d
  {
    (('0' as int) + d) as char
  }

  /** Python's `str(n)` on a natural number: its decimal digits, most significant
      first, without leading zeros. */
  function NatText(n: nat): (r: string)
    ensures |r| > 0 && AllDigits(r)
    ensures |r| > 1 ==> r[0] != '0'
  {
    if n < 10 then [DigitChar(n)] else NatText(n / 10) + [DigitChar(n % 10)]
  }

  /** Python's `str(n)` on an integer. */
  function IntText(n: int): string
  {
    if n < 0 then "-" + NatText(-n) else NatText(n)
  }

  /** The digits of `n` are worth `n`. */
  lemma {:induction false} NatTextValue(n: nat)
    ensures DigitsValue(NatText(n)) == n
  {
    var t := NatText(n);
    if n >= 10 {
      NatTextValue(n / 10);
      assert t[..|t| - 1] == NatText(n / 10);
    } else {
      assert t[..0] == "";
    }
  }

  /** A run of digits has no whitespace to strip. */
  lemma StripDigits(s: string)
    requires |s| > 0 && AllDigits(s)
    ensures Strip(s) == s
  {
    assert !IsSpace(s[0]) && !IsSpace(s[|s| - 1]);
    StripUnpadded(s);
  }

  /** A run of digits has no underscore to drop. */
  lemma UngroupDigits(s: string)
    requires AllDigits(s)
    ensures Ungroup(s) == s
  {
    assert '_' !in s;
  }

  /** A grouped run of plain digits is worth what its digits are worth. */
  lemma GroupedValueDigits(d: string)
    requires |d| > 0 && AllDigits(d)
    ensures Grouped(d) && GroupedValue(d) == DigitsValue(d)
  {
    DigitsGrouped(d);
    UngroupDigits(d);
  }

  /** A run of digits is in the integer syntax. */
  lemma SignedDigits(d: string)
    requires |d| > 0 && AllDigits(d)
    ensures SignedGrouped(d) == Some(DigitsValue(d) as int)
  {
    GroupedValueDigits(d);
    assert !IsSign(d[0]);
  }

  /** A minus sign before grouped digits negates their value. */
  lemma SignedGroupedMinus(d: string)
    requires Grouped(d)
    ensures SignedGrouped("-" + d) == Some(-(GroupedValue(d) as int))
  {
    var t := "-" + d;
    assert t[1..] == d;
  }

  /** A run of digits reads as its value under `int()`. */
  lemma IntDigits(s: string)
    requires |s| > 0 && AllDigits(s)
    ensures ParseInt(s) == Some(DigitsValue(s) as int)
  {
    StripDigits(s);
    SignedDigits(s);
  }

  /** A run of digits reads as its value under `int()` and `float()` alike. */
  lemma PlainDigits(s: string)
    requires |s| > 0 && AllDigits(s)
    ensures ParseInt(s) == Some(DigitsValue(s) as int)
    ensures ParseFloat(s) == Some(DigitsValue(s) as real)
  {
    IntDigits(s);
    IntIsFloat(s);
  }

  /** `int()` ignores whitespace added at either end. */
  lemma IntIgnoresWhitespace(pre: string, s: string, post: string)
    requires AllSpace(pre) && AllSpace(post)
    ensures ParseInt(pre + s + post) == ParseInt(s)
  {
    StripAbsorbs(pre, s, post);
  }

  /** `float()` ignores whitespace added at either end. */
  lemma FloatIgnoresWhitespace(pre: string, s: string, post: string)
    requires AllSpace(pre) && AllSpace(post)
    ensures ParseFloat(pre + s + post) == ParseFloat(s)
  {
    StripAbsorbs(pre, s, post);
  }

  /** Value of the digits after a decimal point, read from the point outwards:
      each digit is worth a tenth of what the one before it is worth. */
  function FractionValue(frac: string): (r: real)
    requires AllDigits(frac)
    ensures 0.0 <= r < 1.0
    decreases |frac|
  {
    if frac == "" then 0.0
    else (((frac[0] as int) - ('0' as int)) as real + FractionValue(frac[1..])) / 10.0
  }

  /** A trailing zero after the point changes nothing: "0.50" is "0.5". */
  lemma {:induction false} FractionTrailingZero(frac: string)
    requires AllDigits(frac)
    ensures FractionValue(frac + "0") == FractionValue(frac)
    decreases |frac|
  {
    if frac == "" {
      assert ("" + "0")[1..] == "";
    } else {
      FractionTrailingZero(frac[1..]);
      assert (frac + "0")[1..] == frac[1..] + "0";
    }
  }

  /** A grouped run, or nothing: a float's whole or fractional part. */
  predicate OptGrouped(s: string) { s == "" || Grouped(s) }

  /** The value of a whole part; an empty one is worth 0. */
  function WholePart(s: string): nat
    requires OptGrouped(s)
  {
    if s == "" then 0 else GroupedValue(s)
  }

  /** The value of the digits after a decimal point, underscores dropped; none at
      all are worth 0. */
  function FractionPart(frac: string): (r: real)
    requires OptGrouped(frac)
    ensures 0.0 <= r < 1.0
  {
    if frac == "" then 0.0
    else
      GroupedDigits(frac);
      FractionValue(Ungroup(frac))
  }

  /** The number written by a whole part and a fractional part, each empty or
      grouped digits, and not both empty. */
  function DecimalParts(whole: string, frac: string): (r: Option<real>)
    ensures r.Some? <==> OptGrouped(whole) && OptGrouped(frac) && |whole| + |frac| > 0
    ensures r.Some? ==> WholePart(whole) as real <= r.value < WholePart(whole) as real + 1.0
  {
    if OptGrouped(whole) && OptGrouped(frac) && |whole| + |frac| > 0 then
      Some(WholePart(whole) as real + FractionPart(frac))
    else None
  }

  /** Where the first `c` stands in `s`; `|s|` when there is none. */
  function FirstOf(s: string, c: char): (r: nat)
    ensures r <= |s|
    ensures r < |s| ==> s[r] == c
  {
    if s == [] || s[0] == c then 0 else 1 + FirstOf(s[1..], c)
  }

  /** Where the first exponent marker, `e` or `E`, stands in `s`; `|s|` when
      there is none. */
  function FirstExponent(s: string): (r: nat)
    ensures r <= |s|
    ensures r < |s| ==> s[r] == 'e' || s[r] == 'E'
  {
    if s == [] || s[0] == 'e' || s[0] == 'E' then 0 else 1 + FirstExponent(s[1..])
  }

  /** A character that does not occur is found past the end. */
  lemma {:induction false} FirstOfAbsent(s: string, c: char)
    requires c !in s
    ensures FirstOf(s, c) == |s|
  {
    if s != [] {
      assert s[1..] == s[1..];
      assert c !in s[1..];
      FirstOfAbsent(s[1..], c);
    }
  }

  /** The first `c` after a stretch without one is found where it stands. */
  lemma {:induction false} FirstOfAt(a: string, b: string, c: char)
    requires c !in a
    ensures FirstOf(a + [c] + b, c) == |a|
  {
    if a != [] {
      assert (a + [c] + b)[1..] == a[1..] + [c] + b;
      FirstOfAt(a[1..], b, c);
    }
  }

  /** Without `e` or `E` no exponent marker is found. */
  lemma {:induction false} FirstExponentAbsent(s: string)
    requires 'e' !in s && 'E' !in s
    ensures FirstExponent(s) == |s|
  {
    if s != [] {
      assert 'e' !in s[1..] && 'E' !in s[1..];
      FirstExponentAbsent(s[1..]);
    }
  }

  /** The first exponent marker after a stretch without one is found where it
      stands. */
  lemma {:induction false} FirstExponentAt(a: string, b: string)
    requires 'e' !in a && 'E' !in a
    ensures FirstExponent(a + "e" + b) == |a|
  {
    if a != [] {
      assert (a + "e" + b)[1..] == a[1..] + "e" + b;
      FirstExponentAt(a[1..], b);
    }
  }

  /** A float's mantissa: digits with at most one decimal point. Whatever
      follows the first point is the fractional part, so a second point makes
      it no grouped run. */
  function Mantissa(m: string): (r: Option<real>)
    ensures r.Some? ==> r.value >= 0.0
  {
    var j := FirstOf(m, '.');
    if j == |m| then DecimalParts(m, "") else DecimalParts(m[..j], m[j + 1..])
  }

  /** `v` shifted `e` decimal places: to the left for a positive `e`, to the
      right for a negative one. */
  function Scale(v: real, e: int): (r: real)
    ensures v >= 0.0 ==> r >= 0.0
    decreases if e >= 0 then e else -e
  {
    if e == 0 then v
    else if e > 0 then 10.0 * Scale(v, e - 1)
    else Scale(v, e + 1) / 10.0
  }

  /** Shifting left by `e` places is multiplying by ten to the `e`. */
  lemma {:induction false} ScaleUp(v: real, e: nat)
    ensures Scale(v, e) == v * Pow10(e) as real
  {
    if e > 0 {
      ScaleUp(v, e - 1);
      var p := Pow10(e - 1) as real;
      assert Pow10(e) as real == 10.0 * p;
      TenTimes(v, p);
    }
  }

  /** Shifting right by `e` places is dividing by ten to the `e`. */
  lemma {:induction false} ScaleDown(v: real, e: nat)
    ensures Scale(v, -(e as int)) == v / Pow10(e) as real
  {
    if e > 0 {
      ScaleDown(v, e - 1);
      var p := Pow10(e - 1) as real;
      assert Pow10(e) as real == 10.0 * p;
      assert Scale(v, -(e as int)) == Scale(v, -((e - 1) as int)) / 10.0;
      TenthOf(v, p);
    }
  }

  /** Multiplying by ten commutes into a product: the step of `ScaleUp`. */
  lemma TenTimes(v: real, p: real)
    ensures 10.0 * (v * p) == v * (10.0 * p)
  {
  }

  /** A tenth of a quotient is the quotient by ten times the divisor: the step
      of `ScaleDown`. */
  lemma TenthOf(v: real, p: real)
    requires p > 0.0
    ensures v / p / 10.0 == v / (10.0 * p)
  {
  }

  /** `float()` without a sign: a mantissa, then optionally `e` or `E` and an
      exponent with an optional sign. */
  function UnsignedFloat(u: string): (r: Option<real>)
    ensures r.Some? ==> r.value >= 0.0
  {
    var k := FirstExponent(u);
    if k == |u| then Mantissa(u)
    else
      match Mantissa(u[..k])
      case None => None
      case Some(m) =>
        match SignedGrouped(u[k + 1..])
        case None => None
        case Some(e) => Some(Scale(m, e))
  }

  /** A float once the surrounding whitespace is gone: an optional sign, then an
      unsigned float. */
  function SignedFloat(t: string): (r: Option<real>)
    ensures r.Some? && r.value < 0.0 ==> |t| > 0 && t[0] == '-'
  {
    if |t| > 0 && IsSign(t[0]) then
      match UnsignedFloat(t[1..])
      case None => None
      case Some(v) => Some(if t[0] == '-' then -v else v)
    else UnsignedFloat(t)
  }

  /** Python's `float(s)` on a string of finite decimal form: surrounding
      whitespace, an optional sign, a mantissa and an optional exponent, with
      single underscores allowed between digits. A negative result needs a minus
      sign in the text. */
  function ParseFloat(s: string): (r: Option<real>)
    ensures r.Some? && r.value < 0.0 ==> '-' in s
  {
    var t := Strip(s);
    var r := SignedFloat(t);
    assert r.Some? && r.value < 0.0 ==> t[0] == s[|s| - |StripLeft(s)|];
    r
  }

  /** A grouped run has no point and no exponent, so it reads as its value. */
  lemma GroupedAsFloat(g: string)
    requires Grouped(g)
    ensures UnsignedFloat(g) == Some(GroupedValue(g) as real)
  {
    GroupedDigits(g);
    assert 'E' !in g && 'e' !in g && '.' !in g;
    FirstExponentAbsent(g);
    FirstOfAbsent(g, '.');
    assert DecimalParts(g, "") == Some(GroupedValue(g) as real);
  }

  /** An integer the sign-and-digits syntax accepts reads the same as a float. */
  lemma SignedGroupedIsFloat(t: string)
    requires SignedGrouped(t).Some?
    ensures SignedFloat(t) == Some(SignedGrouped(t).value as real)
  {
    if |t| > 1 && IsSign(t[0]) && Grouped(t[1..]) {
      var v := GroupedValue(t[1..]) as real;
      assert UnsignedFloat(t[1..]) == Some(v) by { GroupedAsFloat(t[1..]); }
    } else {
      assert Grouped(t) && !IsSign(t[0]);
      var v := GroupedValue(t) as real;
      assert UnsignedFloat(t) == Some(v) by { GroupedAsFloat(t); }
    }
  }

  /** A string `int()` accepts, `float()` accepts with the same value. */
  lemma IntIsFloat(s: string)
    requires ParseInt(s).Some?
    ensures ParseFloat(s) == Some(ParseInt(s).value as real)
  {
    SignedGroupedIsFloat(Strip(s));
  }

  /** Python's `int(x)` on a float: truncation toward zero. */
  function Trunc(x: real): (r: int)
    ensures x >= 0.0 ==> 0 <= r && r as real <= x < r as real + 1.0
    ensures x < 0.0 ==> r <= 0 && r as real - 1.0 < x <= r as real
  {
    if x >= 0.0 then x.Floor else -((-x).Floor)
  }

  /** Truncation keeps the order of its arguments. */
  lemma TruncMonotone(x: real, y: real)
    requires x <= y
    ensures Trunc(x) <= Trunc(y)
  {
  }

  /** PostgreSQL's assignment of a numeric literal to an `INT` column: round to
      the nearest integer, halves away from zero. */
  function RoundNumeric(x: real): (r: int)
    ensures x >= 0.0 ==> x - 0.5 < r as real <= x + 0.5
    ensures x < 0.0 ==> x - 0.5 <= r as real < x + 0.5
  {
    if x >= 0.0 then (x + 0.5).Floor else -((-x + 0.5).Floor)
  }

  /** Rounding to a time code never reverses the order of two instants. */
  lemma RoundNumericMonotone(x: real, y: real)
    requires x <= y
    ensures RoundNumeric(x) <= RoundNumeric(y)
  {
  }

  /** Python's `math.pi`, read as an exact real. */
  const Pi: real := 3.141592653589793

  /** One full turn, `2 * pi`, the modulus every angle in the source is reduced by. */
  const TwoPi: real := 2.0 * Pi

  /** Python's `x % (2 * pi)` on floats: the representative of `x` in `[0, 2*pi)`
      that differs from `x` by a whole number of turns. */
  function AngleMod(x: real): (r: real)
    ensures 0.0 <= r < TwoPi
  {
    var q := (x / TwoPi).Floor;
    x - TwoPi * q as real
  }

  /** `AngleMod` is characterised by its range: any `y` in `[0, 2*pi)` that differs
      from `x` by whole turns is `x % (2 * pi)`. */
  lemma AngleModUnique(x: real, k: int, y: real)
    requires 0.0 <= y < TwoPi
    requires x == y + TwoPi * k as real
    ensures AngleMod(x) == y
  {
    assert x / TwoPi == y / TwoPi + k as real;
    assert (x / TwoPi).Floor == k;
  }

  /** Adding whole turns does not change the representative. */
  lemma AngleModShift(x: real, k: int)
    ensures AngleMod(x + TwoPi * k as real) == AngleMod(x)
  {
    var q := (x / TwoPi).Floor;
    AngleModUnique(x + TwoPi * k as real, q + k, AngleMod(x));
  }

  /** An angle already in `[0, 2*pi)` is its own representative. */
  lemma AngleModInRange(x: real)
    requires 0.0 <= x < TwoPi
    ensures AngleMod(x) == x
  {
    AngleModUnique(x, 0, x);
  }

  /** One degree of separation, in metres, for North America. */
  const MetersPerDegree: real := 111139.0

  /** `metersToDegreesNA`: metres to approximate degrees. */
  function MetersToDegreesNA(meters: real): (r: real)
    ensures r * MetersPerDegree == meters
    ensures meters > 0.0 <==> r > 0.0
  {
    meters / MetersPerDegree
  }

  /** `degreesToMetersNA`: approximate degrees to metres; over exact reals it
      undoes `MetersToDegreesNA` and is undone by it. */
  function DegreesToMetersNA(degrees: real): (r: real)
    ensures MetersToDegreesNA(r) == degrees
    ensures forall meters :: MetersToDegreesNA(meters) == degrees ==> r == meters
  {
    degrees * MetersPerDegree
  }
}

=== FILE: radar_sweep.dfy ===
/** One radar sweep of the defender: each missile the attacker reports is
    classified against the tracking tables, and a missile seen for the second
    time is planned against and retired. */
module RadarSweep {
  import opened Common
  import opened Numbers
  import opened TimeConversion
  import opened MissileSpec
  import opened Trajectory
  import opened Inventory
  import opened Interception

  /** A row of `active_missile_pings` or `solved_missile_pings`. */
  datatype TrackRow = TrackRow(pos: Point3, timeCode: int, missileType: string, id: int)

  /** A row of `logged_intercepts`: aim point, impact time code, interceptor class
      and the id of the missile it is sent against. */
  datatype LogRow = LogRow(aim: Point3, timeCode: int, interceptor: string, targetId: int)

  /** The `FIRE_SOLUTION` payload. The two times are the whole seconds the source
      formats as dates. */
  datatype FireSolution = FireSolution(
    teamId: int, targetMissileId: int, missileType: string,
    firedFromLon: real, firedFromLat: real, firedSecond: int,
    aimLat: real, aimLon: real, expectedHitSecond: int, targetAltMeters: real)

  /** The tables a sweep reads and writes, and the fire solutions sent so far. */
  datatype State = State(
    solved: seq<TrackRow>, active: seq<TrackRow>, inventory: seq<Stock>,
    log: seq<LogRow>, sent: seq<FireSolution>)

  /** One feature of the attacker's radar reply; the altitude is in metres. */
  datatype Ping = Ping(id: int, lon: real, lat: real, altitude: real, currentTime: string, missileType: string)

  /** Which reading of the prior-sample query and the threat count a sweep runs:
      the two queries as the source writes them, or as they are evidently meant
      (the prior row of the same missile; the pairs that really intersect). */
  datatype Queries = AsWritten | Intended

  /** What a sweep depends on besides the tables: the simulation clock, PostGIS,
      the strategy globals, the team id and the reading of the two queries. */
  datatype Context = Context(now: real, geo: Geometry, cfg: Config, teamId: int, queries: Queries)

  function Position(p: Ping): Point3
  {
    Point3(p.lon, p.lat, MetersToDegreesNA(p.altitude))
  }

  function RowOf(p: Ping, timeCode: int): TrackRow
  {
    TrackRow(Position(p), timeCode, p.missileType, p.id)
  }

  /** `SELECT COUNT(missile_id) ... WHERE missile_id = id` is positive. */
  predicate HasId(rows: seq<TrackRow>, id: int)
  {
    exists i :: 0 <= i < |rows| && rows[i].id == id
  }

  predicate IsSolved(s: State, id: int) { HasId(s.solved, id) }

  predicate IsActive(s: State, id: int) { HasId(s.active, id) }

  /** `DELETE FROM active_missile_pings WHERE missile_id = id`. */
  function RemoveId(rows: seq<TrackRow>, id: int): (r: seq<TrackRow>)
    ensures forall x :: x in r <==> x in rows && x.id != id
    ensures !HasId(r, id)
  {
    if |rows| == 0 then []
    else if rows[0].id == id then RemoveId(rows[1..], id)
    else [rows[0]] + RemoveId(rows[1..], id)
  }

  /** The prior sample of a missile: its row in the active table. */
  function PriorFor(active: seq<TrackRow>, id: int): (r: Option<TrackRow>)
    ensures r.Some? <==> HasId(active, id)
    ensures r.Some? ==> r.value in active && r.value.id == id
  {
    if |active| == 0 then None
    else if active[0].id == id then Some(active[0])
    else
      var rest := PriorFor(active[1..], id);
      assert HasId(active, id) ==> HasId(active[1..], id) by {
        if HasId(active, id) {
          var k :| 0 <= k < |active| && active[k].id == id;
          assert active[1..][k - 1].id == id;
        }
      }
      rest
  }

  /** The prior-sample query as the source writes it: no `WHERE` clause, so the
      first row of the whole active table, whichever missile it belongs to. */
  function PriorRowAsWritten(active: seq<TrackRow>): (r: Option<TrackRow>)
    ensures r.Some? <==> |active| > 0
    ensures r.Some? ==> r.value in active
  {
    if |active| == 0 then None else Some(active[0])
  }

  /** With two missiles in flight, the query as written hands the second one the
      first one's sample. */
  lemma PriorRowAsWrittenMixesMissiles()
    ensures var first := TrackRow(Point3(0.0, 0.0, 0.0), 10, "Atlas", 1);
      var second := TrackRow(Point3(1.0, 1.0, 0.0), 10, "Titan", 2);
      PriorRowAsWritten([first, second]).value.id != 2 &&
      PriorFor([first, second], 2) == Some(second)
  {
    var first := TrackRow(Point3(0.0, 0.0, 0.0), 10, "Atlas", 1);
    var second := TrackRow(Point3(1.0, 1.0, 0.0), 10, "Titan", 2);
    assert [first, second][1..] == [second];
  }

  /** How many of the given trajectory points lie within `radius` of `target`. */
  function HitsOn(target: Point3, traj: seq<Predicted>, geo: Geometry, radius: real): (r: nat)
    ensures r <= |traj|
    ensures r == 0 <==> forall k :: 0 <= k < |traj| ==> !geo.within(target, traj[k].pos, radius)
  {
    if |traj| == 0 then 0
    else
      var rest := HitsOn(target, traj[1..], geo, radius);
      assert forall k :: 1 <= k < |traj| ==> traj[1..][k - 1] == traj[k];
      (if geo.within(target, traj[0].pos, radius) then 1 else 0) + rest
  }

  /** The (target, point) pairs, over the given targets, where the point lies
      within `radius` of the target. */
  function PairsWithin(targets: seq<Point3>, traj: seq<Predicted>, geo: Geometry, radius: real): (r: nat)
    ensures r <= |targets| * |traj|
    ensures r == 0 <==> forall t, k :: 0 <= t < |targets| && 0 <= k < |traj| ==> !geo.within(targets[t], traj[k].pos, radius)
  {
    if |targets| == 0 then 0
    else
      var rest := PairsWithin(targets[1..], traj, geo, radius);
      assert forall t :: 1 <= t < |targets| ==> targets[1..][t - 1] == targets[t];
      assert |targets| * |traj| == |traj| + |targets[1..]| * |traj|;
      HitsOn(targets[0], traj, geo, radius) + rest
  }

  /** The threat count the gate means to take: how many (target, predicted point)
      pairs put a target inside the missile's blast radius. An unknown missile class
      makes the radius `NULL` and the count 0. */
  function ThreatCount(geo: Geometry, spec: Option<Spec>, traj: seq<Predicted>): (r: nat)
    ensures r == 0 <==>
      (spec.None? ||
       forall t, k :: 0 <= t < |geo.targets| && 0 <= k < |traj| ==> !geo.within(geo.targets[t], traj[k].pos, DangerRadius(spec.value)))
  {
    match spec
    case None => 0
    case Some(sp) => PairsWithin(geo.targets, traj, geo, DangerRadius(sp))
  }

  /** `count(ST_Intersects(...))` as the source writes it: `count` of an expression
      counts every non-null row, whether the intersection holds or not, so with a
      known class it is the number of (target, point) pairs. */
  function ThreatCountAsWritten(geo: Geometry, spec: Option<Spec>, traj: seq<Predicted>): (r: nat)
    ensures spec.None? ==> r == 0
    ensures spec.Some? ==> r == |geo.targets| * |traj|
  {
    match spec
    case None => 0
    case Some(_) => |geo.targets| * |traj|
  }

  /** The count as written never misses a threat, but it also counts pairs out of
      range: one target nowhere near a one-point trajectory still scores 1, so the
      missile is planned against although it threatens nothing. */
  lemma ThreatCountAsWrittenCountsMisses()
    ensures var geo := Geometry((p: Point3) => None, [Point3(0.0, 0.0, 0.0)], (a: Point3, b: Point3, r: real) => false);
      var traj := [Predicted(Point3(5.0, 5.0, 1.0), 1)];
      ThreatCount(geo, SpecFor("Atlas"), traj) == 0 && ThreatCountAsWritten(geo, SpecFor("Atlas"), traj) == 1
  {
    assert SpecTable[0].className == "Atlas";
  }

  /** The intended count is never above the count as written. */
  lemma ThreatCountBelowAsWritten(geo: Geometry, spec: Option<Spec>, traj: seq<Predicted>)
    ensures ThreatCount(geo, spec, traj) <= ThreatCountAsWritten(geo, spec, traj)
  {
  }

  /** The prior sample the sweep reads. As written it may belong to another
      missile; either way a missile with an active row gets some active row, and
      the intended query gets one of the same missile. */
  function Prior(q: Queries, active: seq<TrackRow>, id: int): (r: Option<TrackRow>)
    ensures r.Some? ==> r.value in active
    ensures HasId(active, id) ==> r.Some?
    ensures q.Intended? ==> (r.Some? <==> HasId(active, id)) && (r.Some? ==> r.value.id == id)
  {
    match q
    case AsWritten => PriorRowAsWritten(active)
    case Intended => PriorFor(active, id)
  }

  /** The threat count the gate reads. Either reading is at least the number of
      pairs that really intersect, so the gate lets through no missile that
      threatens a target; as written it is at most the count of every pair. */
  function Threats(q: Queries, geo: Geometry, spec: Option<Spec>, traj: seq<Predicted>): (r: nat)
    ensures ThreatCount(geo, spec, traj) <= r <= ThreatCountAsWritten(geo, spec, traj)
    ensures q.Intended? ==> (r == 0 <==> ThreatCount(geo, spec, traj) == 0)
  {
    ThreatCountBelowAsWritten(geo, spec, traj);
    match q
    case AsWritten => ThreatCountAsWritten(geo, spec, traj)
    case Intended => ThreatCount(geo, spec, traj)
  }

  /** Move a missile to `solved_missile_pings` and delete its active rows. */
  function Retire(s: State, row: TrackRow): State
  {
    s.(solved := s.solved + [row], active := RemoveId(s.active, row.id))
  }

  /** Send the fire solution, log the intercept and spend one interceptor. The
      solution is fired from the battery, aimed at the intercept point (latitude
      first, as the payload lists it) with its altitude back in metres, and
      carries the whole launch second and the impact time code. */
  function Launch(s: State, name: string, shot: Shot, p: Ping, ctx: Context): (r: State)
    ensures r.solved == s.solved && r.active == s.active
    ensures r.inventory == Decrement(s.inventory, name)
    ensures DistinctNames(s.inventory) && HasName(s.inventory, name) ==>
      Total(r.inventory) == Total(s.inventory) - 1
    ensures r.log == s.log + [LogRow(shot.aim, shot.impact, name, p.id)]
    ensures |r.sent| == |s.sent| + 1 && r.sent[..|s.sent|] == s.sent
    ensures var f := r.sent[|s.sent|];
      f.teamId == ctx.teamId && f.targetMissileId == p.id && f.missileType == name &&
      f.firedFromLon == shot.base.x && f.firedFromLat == shot.base.y &&
      f.aimLat == shot.aim.y && f.aimLon == shot.aim.x &&
      MetersToDegreesNA(f.targetAltMeters) == shot.aim.z &&
      f.firedSecond == Trunc(shot.launch) && f.expectedHitSecond == shot.impact
  {
    var solution := FireSolution(ctx.teamId, p.id, name, shot.base.x, shot.base.y, Trunc(shot.launch),
                                 shot.aim.y, shot.aim.x, shot.impact, DegreesToMetersNA(shot.aim.z));
    assert DistinctNames(s.inventory) ==>
      Total(Decrement(s.inventory, name)) == if HasName(s.inventory, name) then Total(s.inventory) - 1 else Total(s.inventory)
    by {
      if DistinctNames(s.inventory) {
        DecrementTotal(s.inventory, name);
      }
    }
    s.(inventory := Decrement(s.inventory, name),
       log := s.log + [LogRow(shot.aim, shot.impact, name, p.id)],
       sent := s.sent + [solution])
  }

  /** Continue with the next feature, stop the sweep (the `break` of the threat
      gate), or fail into the catch-all handler. */
  datatype FeatureResult = Continue(s: State) | Stop(s: State) | Fault

  /** `rows` grew by one row for `id` at the end. */
  predicate GrewBy(before: seq<TrackRow>, after: seq<TrackRow>, id: int)
  {
    |after| == |before| + 1 && after[..|before|] == before && after[|before|].id == id
  }

  /** An already solved missile: another solved row, stamped with its ping time. */
  function SolvedAgain(s: State, p: Ping): (r: FeatureResult)
    ensures r.Fault? <==> ToSecondsSimple(p.currentTime).None?
    ensures r.Continue? ==> r.s == s.(solved := r.s.solved) && GrewBy(s.solved, r.s.solved, p.id)
  {
    match ToSecondsSimple(p.currentTime)
    case None => Fault
    case Some(t) => Continue(s.(solved := s.solved + [RowOf(p, RoundNumeric(t))]))
  }

  /** A missile in neither table: record it as active, stamped with its ping time. */
  function NewTrack(s: State, p: Ping): (r: FeatureResult)
    ensures r.Fault? <==> ToSecondsSimple(p.currentTime).None?
    ensures r.Continue? ==> r.s == s.(active := r.s.active) && GrewBy(s.active, r.s.active, p.id)
  {
    match ToSecondsSimple(p.currentTime)
    case None => Fault
    case Some(t) => Continue(s.(active := s.active + [RowOf(p, RoundNumeric(t))]))
  }

  /** The interceptor bookkeeping of one feature: either nothing was spent, or
      one unit of a held class was spent, logged against missile `id` and
      announced. */
  ghost predicate SpentAtMostOne(before: State, after: State, id: int)
  {
    (after.inventory == before.inventory && after.log == before.log && after.sent == before.sent) ||
    (exists name :: HasName(before.inventory, name) && after.inventory == Decrement(before.inventory, name) &&
       |after.log| == |before.log| + 1 && after.log[..|before.log|] == before.log &&
       after.log[|before.log|].targetId == id && |after.sent| == |before.sent| + 1)
  }

  /** With names distinct, the bookkeeping keeps stock plus log length. */
  lemma SpentAtMostOneAccounting(before: State, after: State, id: int)
    requires DistinctNames(before.inventory)
    requires SpentAtMostOne(before, after, id)
    ensures Total(after.inventory) + |after.log| == Total(before.inventory) + |before.log|
    ensures |before.log| <= |after.log| <= |before.log| + 1
    ensures |after.sent| - |before.sent| == |after.log| - |before.log|
    ensures DistinctNames(after.inventory)
  {
    if after.inventory != before.inventory || after.log != before.log || after.sent != before.sent {
      var name :| HasName(before.inventory, name) && after.inventory == Decrement(before.inventory, name) &&
        |after.log| == |before.log| + 1 && after.log[..|before.log|] == before.log &&
        after.log[|before.log|].targetId == id && |after.sent| == |before.sent| + 1;
      DecrementTotal(before.inventory, name);
    }
  }

  /** An interceptor logged by a feature hits no earlier than `now` plus the
      buffer; its launch second lies between that moment, truncated, and impact. */
  predicate FiredInTime(before: State, after: State, ctx: Context)
  {
    |after.log| > |before.log| && |after.sent| > |before.sent| ==>
      after.log[|before.log|].timeCode as real >= ctx.now + Buffer(ctx.cfg) as real &&
      Trunc(ctx.now + Buffer(ctx.cfg) as real) <= after.sent[|before.sent|].firedSecond &&
      after.sent[|before.sent|].firedSecond <= after.log[|before.log|].timeCode
  }

  /** The plan for a missile seen before, once its trajectory is predicted: the
      threat gate, then the interceptor loop, then retirement whatever the loop
      found. */
  function Engage(s: State, p: Ping, t: real, traj: seq<Predicted>, ctx: Context): (r: FeatureResult)
    ensures r.Stop? ==>
      (!ctx.cfg.altruist && Threats(ctx.queries, ctx.geo, SpecFor(p.missileType), traj) == 0 &&
       ThreatCount(ctx.geo, SpecFor(p.missileType), traj) == 0 &&
       r.s == Retire(s, RowOf(p, RoundNumeric(ctx.now))))
    ensures r.Continue? ==>
      ((ctx.cfg.altruist || Threats(ctx.queries, ctx.geo, SpecFor(p.missileType), traj) > 0) &&
       r.s.solved == s.solved + [RowOf(p, RoundNumeric(t))] && r.s.active == RemoveId(s.active, p.id) &&
       SpentAtMostOne(s, r.s, p.id) && FiredInTime(s, r.s, ctx))
    ensures r.Continue? && Plan(PriorityOrder(s.inventory), traj, ctx.geo, ctx.now, ctx.cfg).NoSolution? ==>
      r.s.inventory == s.inventory && r.s.log == s.log
    ensures ((ctx.cfg.altruist || Threats(ctx.queries, ctx.geo, SpecFor(p.missileType), traj) > 0) &&
             Plan(PriorityOrder(s.inventory), traj, ctx.geo, ctx.now, ctx.cfg).Fire?) ==>
      var plan := Plan(PriorityOrder(s.inventory), traj, ctx.geo, ctx.now, ctx.cfg);
      r.Continue? && r.s.inventory == Decrement(s.inventory, plan.name) &&
      r.s.log == s.log + [LogRow(plan.shot.aim, plan.shot.impact, plan.name, p.id)] &&
      |r.s.sent| == |s.sent| + 1 && r.s.sent[|s.sent|].missileType == plan.name
    ensures r.Fault? <==>
      ((ctx.cfg.altruist || Threats(ctx.queries, ctx.geo, SpecFor(p.missileType), traj) > 0) &&
       Plan(PriorityOrder(s.inventory), traj, ctx.geo, ctx.now, ctx.cfg).PlanFault?)
  {
    if !ctx.cfg.altruist && Threats(ctx.queries, ctx.geo, SpecFor(p.missileType), traj) == 0 then
      Stop(Retire(s, RowOf(p, RoundNumeric(ctx.now))))
    else
      var order := PriorityOrder(s.inventory);
      match Plan(order, traj, ctx.geo, ctx.now, ctx.cfg)
      case PlanFault => Fault
      case NoSolution => Continue(Retire(s, RowOf(p, RoundNumeric(t))))
      case Fire(name, shot) =>
        PlanUsesHeldClass(s.inventory, order, traj, ctx.geo, ctx.now, ctx.cfg);
        PlanShotBounds(order, traj, ctx.geo, ctx.now, ctx.cfg);
        Continue(FireAndRetire(s, p, t, name, shot, ctx))
  }

  /** A successful plan: launch, then retire the missile. */
  function FireAndRetire(s: State, p: Ping, t: real, name: string, shot: Shot, ctx: Context): (r: State)
    requires exists j :: 0 <= j < |s.inventory| && s.inventory[j].name == name && s.inventory[j].count > 0
    requires ctx.now + Buffer(ctx.cfg) as real <= shot.launch <= shot.impact as real
    ensures r.solved == s.solved + [RowOf(p, RoundNumeric(t))] && r.active == RemoveId(s.active, p.id)
    ensures r.inventory == Decrement(s.inventory, name)
    ensures DistinctNames(s.inventory) ==> Total(r.inventory) == Total(s.inventory) - 1
    ensures r.log == s.log + [LogRow(shot.aim, shot.impact, name, p.id)]
    ensures |r.sent| == |s.sent| + 1 && r.sent[..|s.sent|] == s.sent &&
      r.sent[|s.sent|].targetMissileId == p.id && r.sent[|s.sent|].missileType == name
    ensures SpentAtMostOne(s, r, p.id) && FiredInTime(s, r, ctx)
  {
    var l := Launch(s, name, shot, p, ctx);
    var r := Retire(l, RowOf(p, RoundNumeric(t)));
    assert r.inventory == l.inventory && r.log == l.log && r.sent == l.sent;
    SpentOne(s, r, name, LogRow(shot.aim, shot.impact, name, p.id));
    LaunchInTime(s, r, shot, ctx);
    r
  }

  /** A shot launched between `now` plus the buffer and its impact gives a
      timely log row and fire solution. */
  lemma LaunchInTime(before: State, after: State, shot: Shot, ctx: Context)
    requires ctx.now + Buffer(ctx.cfg) as real <= shot.launch <= shot.impact as real
    requires |after.log| == |before.log| + 1 && after.log[|before.log|].timeCode == shot.impact
    requires |after.sent| == |before.sent| + 1 && after.sent[|before.sent|].firedSecond == Trunc(shot.launch)
    ensures FiredInTime(before, after, ctx)
  {
    TruncBelow(shot.launch, shot.impact);
    TruncMonotone(ctx.now + Buffer(ctx.cfg) as real, shot.launch);
  }

  /** One unit of a held class spent, one row logged and one solution sent is
      the second case of the bookkeeping. */
  lemma SpentOne(before: State, after: State, name: string, row: LogRow)
    requires exists j :: 0 <= j < |before.inventory| && before.inventory[j].name == name
    requires after.inventory == Decrement(before.inventory, name)
    requires after.log == before.log + [row] && |after.sent| == |before.sent| + 1
    ensures SpentAtMostOne(before, after, row.targetId)
  {
    assert HasName(before.inventory, name);
    assert after.log[..|before.log|] == before.log;
  }

  /** A time truncated to whole seconds stays at or before a later whole second. */
  lemma TruncBelow(x: real, n: int)
    requires x <= n as real
    ensures Trunc(x) <= n
  {
  }

  /** A missile with an active row: estimate its velocity against the prior
      sample, predict its path and engage it. The prior's class must be known
      (its radius is fetched and indexed) and the two samples must differ in
      time (the velocity divides by the difference). */
  function Track(s: State, p: Ping, prior: TrackRow, ctx: Context): (r: FeatureResult)
    ensures r.Fault? <== SpecFor(prior.missileType).None? || ToSecondsSimple(p.currentTime).None? ||
      ToSecondsSimple(p.currentTime).value == prior.timeCode as real
    ensures r.Stop? ==> !ctx.cfg.altruist && r.s == Retire(s, RowOf(p, RoundNumeric(ctx.now)))
    ensures r.Continue? ==>
      GrewBy(s.solved, r.s.solved, p.id) && r.s.active == RemoveId(s.active, p.id) &&
      SpentAtMostOne(s, r.s, p.id) && FiredInTime(s, r.s, ctx)
  {
    if SpecFor(prior.missileType).None? then Fault
    else
      match ToSecondsSimple(p.currentTime)
      case None => Fault
      case Some(t) =>
        match Velocity(prior.pos, prior.timeCode as real, Position(p), t)
        case None => Fault
        case Some(v) =>
          var r := Engage(s, p, t, Predict(Position(p), v, ctx.now, ctx.cfg.predictionCap), ctx);
          assert r.Continue? ==> r.s.solved[..|s.solved|] == s.solved;
          r
  }

  /** One feature of the reply, classified three ways: a solved missile only gets
      another solved row; a missile in neither table becomes active; an active
      missile is planned against and then always leaves the active table for the
      solved one, whether or not an interceptor was sent. */
  function Feature(s: State, p: Ping, ctx: Context): (r: FeatureResult)
    ensures IsSolved(s, p.id) ==>
      r.Fault? || (r.Continue? && r.s == s.(solved := r.s.solved) && GrewBy(s.solved, r.s.solved, p.id))
    ensures !IsSolved(s, p.id) && !IsActive(s, p.id) ==>
      r.Fault? || (r.Continue? && r.s == s.(active := r.s.active) && GrewBy(s.active, r.s.active, p.id))
    ensures !IsSolved(s, p.id) && IsActive(s, p.id) && !r.Fault? ==>
      GrewBy(s.solved, r.s.solved, p.id) && r.s.active == RemoveId(s.active, p.id)
    ensures r.Stop? ==>
      (IsActive(s, p.id) && !ctx.cfg.altruist &&
       r.s.inventory == s.inventory && r.s.log == s.log && r.s.sent == s.sent)
    ensures !r.Fault? ==> SpentAtMostOne(s, r.s, p.id) && FiredInTime(s, r.s, ctx)
  {
    if IsSolved(s, p.id) then SolvedAgain(s, p)
    else if IsActive(s, p.id) then
      var r := Track(s, p, Prior(ctx.queries, s.active, p.id).value, ctx);
      assert r.Stop? ==> r.s.solved[..|s.solved|] == s.solved;
      r
    else NewTrack(s, p)
  }

  /** After a feature the missile is in exactly one of the two tables. */
  lemma FeaturePlacesMissile(s: State, p: Ping, ctx: Context)
    requires !Feature(s, p, ctx).Fault?
    ensures var t := Feature(s, p, ctx).s;
      (IsSolved(t, p.id) && (IsSolved(s, p.id) || !IsActive(t, p.id))) ||
      (!IsSolved(s, p.id) && !IsSolved(t, p.id) && IsActive(t, p.id))
  {
    var t := Feature(s, p, ctx).s;
    if IsSolved(s, p.id) || IsActive(s, p.id) {
      assert t.solved[|s.solved|].id == p.id;
    } else {
      assert t.active[|s.active|].id == p.id;
      assert t.solved == s.solved;
    }
  }

  /** A missile once solved stays solved: no feature removes a solved row. */
  lemma FeatureKeepsSolved(s: State, p: Ping, ctx: Context, id: int)
    requires !Feature(s, p, ctx).Fault?
    requires IsSolved(s, id)
    ensures IsSolved(Feature(s, p, ctx).s, id)
  {
    var t := Feature(s, p, ctx).s;
    var k :| 0 <= k < |s.solved| && s.solved[k].id == id;
    if IsSolved(s, p.id) || IsActive(s, p.id) {
      assert t.solved[k] == t.solved[..|s.solved|][k];
    } else {
      assert t.solved == s.solved;
    }
  }

  /** The table invariants a sweep keeps: one active row per missile, no missile
      both active and solved, no repeated inventory name, every logged intercept
      against a solved missile, at most one intercept per missile, one fire
      solution sent per log row. */
  predicate Wf(s: State)
  {
    DistinctIds(s.active) &&
    (forall i :: 0 <= i < |s.active| ==> !IsSolved(s, s.active[i].id)) &&
    DistinctNames(s.inventory) &&
    (forall i :: 0 <= i < |s.log| ==> IsSolved(s, s.log[i].targetId)) &&
    DistinctTargets(s.log) &&
    |s.sent| == |s.log|
  }

  /** No missile has two intercepts logged against it. */
  predicate DistinctTargets(log: seq<LogRow>)
  {
    forall i, j :: 0 <= i < j < |log| ==> log[i].targetId != log[j].targetId
  }

  lemma HasIdAppend(rows: seq<TrackRow>, row: TrackRow, id: int)
    ensures HasId(rows + [row], id) <==> HasId(rows, id) || row.id == id
  {
    if HasId(rows + [row], id) {
      var k :| 0 <= k < |rows + [row]| && (rows + [row])[k].id == id;
      if k < |rows| {
        assert rows[k].id == id;
      }
    }
    if HasId(rows, id) {
      var k :| 0 <= k < |rows| && rows[k].id == id;
      assert (rows + [row])[k].id == id;
    }
    assert (rows + [row])[|rows|] == row;
  }

  /** No missile has two rows. */
  predicate DistinctIds(rows: seq<TrackRow>)
  {
    forall i, j :: 0 <= i < j < |rows| ==> rows[i].id != rows[j].id
  }

  /** The rows after the first of a table without repeats have no repeats and
      none of them shares the first row's id. */
  lemma DistinctTail(rows: seq<TrackRow>)
    requires |rows| > 0 && DistinctIds(rows)
    ensures DistinctIds(rows[1..])
    ensures forall y :: y in rows[1..] ==> y.id != rows[0].id
  {
    forall y | y in rows[1..] ensures y.id != rows[0].id {
      var m :| 0 <= m < |rows[1..]| && rows[1..][m] == y;
      assert rows[m + 1] == y;
    }
  }

  /** A row put in front of a table without repeats, whose id the table lacks. */
  lemma DistinctCons(x: TrackRow, rest: seq<TrackRow>)
    requires DistinctIds(rest)
    requires forall y :: y in rest ==> y.id != x.id
    ensures DistinctIds([x] + rest)
  {
    var r := [x] + rest;
    forall i, j | 0 <= i < j < |r|
      ensures r[i].id != r[j].id
    {
      assert r[j] == rest[j - 1];
      if i > 0 {
        assert r[i] == rest[i - 1];
      }
    }
  }

  /** Deleting a missile's rows keeps the table free of repeats. */
  lemma {:induction false} RemoveIdDistinct(rows: seq<TrackRow>, id: int)
    requires DistinctIds(rows)
    ensures DistinctIds(RemoveId(rows, id))
  {
    if |rows| > 0 {
      DistinctTail(rows);
      RemoveIdDistinct(rows[1..], id);
      var rest := RemoveId(rows[1..], id);
      if rows[0].id != id {
        assert RemoveId(rows, id) == [rows[0]] + rest;
        DistinctCons(rows[0], rest);
      } else {
        assert RemoveId(rows, id) == rest;
      }
    }
  }

  /** Growing the solved table by a row for `id` solves exactly `id` besides the
      missiles solved before. */
  lemma SolvedGrew(s: State, t: State, id: int)
    requires GrewBy(s.solved, t.solved, id)
    ensures forall x :: IsSolved(t, x) <==> IsSolved(s, x) || x == id
  {
    assert t.solved == s.solved + [t.solved[|s.solved|]];
    forall x
      ensures IsSolved(t, x) <==> IsSolved(s, x) || x == id
    {
      HasIdAppend(s.solved, t.solved[|s.solved|], x);
    }
  }

  /** Another solved row for a solved missile keeps the invariants. */
  lemma WfAfterSolvedAgain(s: State, t: State, id: int)
    requires Wf(s) && IsSolved(s, id)
    requires t == s.(solved := t.solved) && GrewBy(s.solved, t.solved, id)
    ensures Wf(t)
  {
    SolvedGrew(s, t, id);
  }

  /** A first active row for a missile in neither table keeps the invariants. */
  lemma WfAfterNewTrack(s: State, t: State, id: int)
    requires Wf(s) && !IsSolved(s, id) && !IsActive(s, id)
    requires t == s.(active := t.active) && GrewBy(s.active, t.active, id)
    ensures Wf(t)
  {
    assert t.active == s.active + [t.active[|s.active|]];
    assert forall i :: 0 <= i < |s.active| ==> t.active[i] == s.active[i];
  }

  /** Retiring a missile, with or without an interceptor spent on it, keeps the
      invariants. */
  lemma WfAfterRetire(s: State, t: State, id: int)
    requires Wf(s) && !IsSolved(s, id)
    requires GrewBy(s.solved, t.solved, id) && t.active == RemoveId(s.active, id)
    requires SpentAtMostOne(s, t, id)
    ensures Wf(t)
  {
    SolvedGrew(s, t, id);
    SpentAtMostOneAccounting(s, t, id);
    RemoveIdDistinct(s.active, id);
    forall i | 0 <= i < |t.active|
      ensures !IsSolved(t, t.active[i].id)
    {
      assert t.active[i] in s.active;
    }
    forall i | 0 <= i < |t.log|
      ensures IsSolved(t, t.log[i].targetId)
    {
      if i < |s.log| {
        assert t.log[i] == t.log[..|s.log|][i];
      }
    }
    forall i, j | 0 <= i < j < |t.log|
      ensures t.log[i].targetId != t.log[j].targetId
    {
      assert t.log[i] == t.log[..|s.log|][i];
      if j < |s.log| {
        assert t.log[j] == t.log[..|s.log|][j];
      } else {
        assert IsSolved(s, s.log[i].targetId);
      }
    }
  }

  /** Every feature that does not fault keeps the invariants. */
  lemma FeaturePreservesWf(s: State, p: Ping, ctx: Context)
    requires Wf(s)
    requires !Feature(s, p, ctx).Fault?
    ensures Wf(Feature(s, p, ctx).s)
  {
    var t := Feature(s, p, ctx).s;
    if IsSolved(s, p.id) {
      WfAfterSolvedAgain(s, t, p.id);
    } else if IsActive(s, p.id) {
      WfAfterRetire(s, t, p.id);
    } else {
      WfAfterNewTrack(s, t, p.id);
    }
  }
}

=== FILE: region.dfy ===
/** The compass sector `loadRegion` spawns the fleet in, picked from a heading in
    whole degrees. */
module Region {
  import opened Numbers

  /** The sixteen compass points, clockwise from north. */
  const CardinalList: seq<string> :=
    ["N", "NNE", "NE", "ENE", "E", "ESE", "SE", "SSE",
     "S", "SSW", "SW", "WSW", "W", "WNW", "NW", "NNW"]

  /** Width of one compass sector, in degrees. */
  const SectorWidth: real := 22.5

  /** Half-width of the spawn window around a sector's centre, in degrees. */
  const WindowHalfWidth: real := 10.25

  /** The chosen sector: its index (16 is north again), its compass name and the
      spawn window's bounding angles in radians. */
  datatype Sector = Sector(index: int, direction: string, lowAngle: real, highAngle: real)

  /** `int((degrees + 11.25) / 22.5)`: the sector whose centre is nearest the heading. */
  function SectorIndex(degrees: int): (r: int)
    requires 0 <= degrees < 360
    ensures 0 <= r <= 16
    ensures r as real * SectorWidth - SectorWidth / 2.0 <= degrees as real < r as real * SectorWidth + SectorWidth / 2.0
  {
    Trunc((degrees as real + 11.25) / SectorWidth)
  }

  /** The sector `loadRegion` picks for a heading in `[0, 360)`. */
  function PickSector(degrees: int): (r: Sector)
    requires 0 <= degrees < 360
    ensures 0 <= r.index <= 16 && r.direction == CardinalList[r.index % 16]
    ensures r.highAngle - r.lowAngle == 2.0 * WindowHalfWidth * Pi / 180.0
    ensures (r.lowAngle + r.highAngle) / 2.0 == r.index as real * SectorWidth * Pi / 180.0
  {
    var index := SectorIndex(degrees);
    Sector(index, CardinalList[index % 16],
           (index as real * SectorWidth - WindowHalfWidth) * Pi / 180.0,
           (index as real * SectorWidth + WindowHalfWidth) * Pi / 180.0)
  }

  /** The sector index is the only one whose 22.5-degree slice holds the heading. */
  lemma SectorIndexUnique(degrees: int, k: int)
    requires 0 <= degrees < 360
    requires k as real * SectorWidth - SectorWidth / 2.0 <= degrees as real < k as real * SectorWidth + SectorWidth / 2.0
    ensures SectorIndex(degrees) == k
  {
    var i := SectorIndex(degrees);
    assert (i - k) as real * SectorWidth < SectorWidth;
    assert (k - i) as real * SectorWidth < SectorWidth;
  }

  /** The compass points are sixteen distinct names. */
  lemma CardinalListDistinct()
    ensures |CardinalList| == 16
    ensures forall i, j :: 0 <= i < j < 16 ==> CardinalList[i] != CardinalList[j]
  {
  }

  /** North is picked exactly for headings within 11 degrees of 0: both ends of
      the range map to it, index 16 wrapping to 0. */
  lemma NorthSector(degrees: int)
    requires 0 <= degrees < 360
    ensures PickSector(degrees).direction == "N" <==> degrees <= 11 || degrees >= 349
  {
    var i := SectorIndex(degrees);
    CardinalListDistinct();
    assert CardinalList[0] == "N";
    if degrees <= 11 {
      SectorIndexUnique(degrees, 0);
    } else if degrees >= 349 {
      SectorIndexUnique(degrees, 16);
    } else {
      assert 1 <= i <= 15;
    }
  }
}

=== FILE: simulation.dfy ===
/** The defender's outer loops: one `RADAR_SWEEP` over an attacker's reply, the
    done check on the inventory, and the control loop that sweeps until the
    interceptors run out. */
module Simulation {
  import opened Common
  import opened Inventory
  import opened Interception
  import opened RadarSweep

  /** An attacker's answer to `RADAR_SWEEP`: no answer at all, a reply holding the
      key 'N/A', or a list of features. */
  datatype Reply = Unreachable | NotAvailable | Features(pings: seq<Ping>)

  /** How a sweep ends, with the tables as committed. `ContactError` and
      `DbError` are the two error strings; `NoResponse` is a sweep that returns
      nothing (no attackers, or 'N/A'); `Processed` is "Radar sweep processed.". */
  datatype SweepResult = ContactError(state: State) | NoResponse(state: State) | Processed(state: State) | DbError(state: State)

  /** The feature loop. Each feature commits on its own, so a fault keeps what the
      earlier features wrote; the threat gate's `break` ends the loop. */
  function ProcessFeatures(s: State, ps: seq<Ping>, ctx: Context): (r: SweepResult)
    ensures r.Processed? || r.DbError?
    ensures |ps| == 0 ==> r == Processed(s)
    decreases |ps|
  {
    if |ps| == 0 then Processed(s)
    else
      match Feature(s, ps[0], ctx)
      case Fault => DbError(s)
      case Stop(t) => Processed(t)
      case Continue(t) => ProcessFeatures(t, ps[1..], ctx)
  }

  /** `radar_sweep`: the replies of the attackers in order. The function returns
      inside the loop over attackers, so only the first one is ever asked. */
  function Sweep(s: State, replies: seq<Reply>, ctx: Context): (r: SweepResult)
    ensures (r.ContactError? || r.NoResponse?) ==> r.state == s
    ensures |replies| == 0 ==> r == NoResponse(s)
  {
    if |replies| == 0 then NoResponse(s)
    else
      match replies[0]
      case Unreachable => ContactError(s)
      case NotAvailable => NoResponse(s)
      case Features(ps) => ProcessFeatures(s, ps, ctx)
  }

  /** Replies from attackers after the first never matter. */
  lemma SweepReadsFirstAttackerOnly(s: State, a: seq<Reply>, b: seq<Reply>, ctx: Context)
    requires |a| > 0 && |b| > 0 && a[0] == b[0]
    ensures Sweep(s, a, ctx) == Sweep(s, b, ctx)
  {
  }

  /** Features after one stopped by the threat gate are never looked at. */
  lemma GateSkipsRest(s: State, p: Ping, rest: seq<Ping>, ctx: Context)
    requires Feature(s, p, ctx).Stop?
    ensures ProcessFeatures(s, [p] + rest, ctx) == Processed(Feature(s, p, ctx).s)
  {
  }

  /** A sweep keeps the table invariants. */
  lemma {:induction false} ProcessFeaturesPreservesWf(s: State, ps: seq<Ping>, ctx: Context)
    requires Wf(s)
    ensures Wf(ProcessFeatures(s, ps, ctx).state)
    decreases |ps|
  {
    if |ps| > 0 {
      var f := Feature(s, ps[0], ctx);
      if !f.Fault? {
        FeaturePreservesWf(s, ps[0], ctx);
        if f.Continue? {
          ProcessFeaturesPreservesWf(f.s, ps[1..], ctx);
        }
      }
    }
  }

  /** A solved missile stays solved through a sweep. */
  lemma {:induction false} ProcessFeaturesKeepsSolved(s: State, ps: seq<Ping>, ctx: Context, id: int)
    requires IsSolved(s, id)
    ensures IsSolved(ProcessFeatures(s, ps, ctx).state, id)
    decreases |ps|
  {
    if |ps| > 0 {
      var f := Feature(s, ps[0], ctx);
      if !f.Fault? {
        FeatureKeepsSolved(s, ps[0], ctx, id);
        if f.Continue? {
          ProcessFeaturesKeepsSolved(f.s, ps[1..], ctx, id);
        }
      }
    }
  }

  /** Over a sweep, every interceptor spent is logged: stock plus log length is
      unchanged, and no more interceptors are spent than features were read. */
  lemma {:induction false} ProcessFeaturesAccounting(s: State, ps: seq<Ping>, ctx: Context)
    requires Wf(s)
    ensures var t := ProcessFeatures(s, ps, ctx).state;
      Total(t.inventory) + |t.log| == Total(s.inventory) + |s.log| &&
      |s.log| <= |t.log| <= |s.log| + |ps|
    decreases |ps|
  {
    if |ps| > 0 {
      var f := Feature(s, ps[0], ctx);
      if !f.Fault? {
        SpentAtMostOneAccounting(s, f.s, ps[0].id);
        if f.Continue? {
          FeaturePreservesWf(s, ps[0], ctx);
          ProcessFeaturesAccounting(f.s, ps[1..], ctx);
        }
      }
    }
  }

  /** The whole sweep keeps the invariants, keeps solved missiles solved and
      logs every interceptor it spends. */
  lemma SweepProperties(s: State, replies: seq<Reply>, ctx: Context)
    requires Wf(s)
    ensures var t := Sweep(s, replies, ctx).state;
      Wf(t) &&
      (forall id :: IsSolved(s, id) ==> IsSolved(t, id)) &&
      Total(t.inventory) + |t.log| == Total(s.inventory) + |s.log| && |s.log| <= |t.log|
  {
    if |replies| > 0 && replies[0].Features? {
      var ps := replies[0].pings;
      ProcessFeaturesPreservesWf(s, ps, ctx);
      ProcessFeaturesAccounting(s, ps, ctx);
      forall id | IsSolved(s, id)
        ensures IsSolved(ProcessFeatures(s, ps, ctx).state, id)
      {
        ProcessFeaturesKeepsSolved(s, ps, ctx, id);
      }
    }
  }

  /** `defenderSimulationDoneCheck`: `False` while the summed inventory is
      positive, `True` otherwise. `None` is a failing query, which also answers
      `True`; an empty table sums to `NULL`, whose conversion fails the same way. */
  function DoneCheck(inv: Option<seq<Stock>>): (r: bool)
    ensures !r <==> inv.Some? && Total(inv.value) > 0
  {
    match inv
    case None => true
    case Some(rows) => if |rows| == 0 then true else !(Total(rows) > 0)
  }

  /** One pass of the control loop: the clock reading for the pass and, for each
      attacker in the list, the replies the `radar_sweep` call of that turn sees. */
  datatype Tick = Tick(now: real, calls: seq<seq<Reply>>)

  /** The sweeps of one pass, one after the other. */
  function RunCalls(s: State, calls: seq<seq<Reply>>, now: real, geo: Geometry, cfg: Config, teamId: int, q: Queries): State
    decreases |calls|
  {
    if |calls| == 0 then s
    else RunCalls(Sweep(s, calls[0], Context(now, geo, cfg, teamId, q)).state, calls[1..], now, geo, cfg, teamId, q)
  }

  /** `simulationControlLoop` over a finite supply of passes: it stops as soon as
      the done check says so, or when the passes run out. Returns the final tables
      and how many passes ran. */
  function ControlLoop(s: State, ticks: seq<Tick>, geo: Geometry, cfg: Config, teamId: int, q: Queries): (r: (State, nat))
    ensures r.1 <= |ticks|
    ensures r.1 < |ticks| ==> DoneCheck(Some(r.0.inventory))
    ensures DoneCheck(Some(s.inventory)) ==> r == (s, 0)
    decreases |ticks|
  {
    if DoneCheck(Some(s.inventory)) || |ticks| == 0 then (s, 0)
    else
      var next := ControlLoop(RunCalls(s, ticks[0].calls, ticks[0].now, geo, cfg, teamId, q), ticks[1..], geo, cfg, teamId, q);
      (next.0, next.1 + 1)
  }

  /** The passes of one tick keep the invariants and log every interceptor spent. */
  lemma {:induction false} RunCallsProperties(s: State, calls: seq<seq<Reply>>, now: real, geo: Geometry, cfg: Config, teamId: int, q: Queries)
    requires Wf(s)
    ensures var t := RunCalls(s, calls, now, geo, cfg, teamId, q);
      Wf(t) && Total(t.inventory) + |t.log| == Total(s.inventory) + |s.log|
    decreases |calls|
  {
    if |calls| > 0 {
      SweepProperties(s, calls[0], Context(now, geo, cfg, teamId, q));
      RunCallsProperties(Sweep(s, calls[0], Context(now, geo, cfg, teamId, q)).state, calls[1..], now, geo, cfg, teamId, q);
    }
  }

  /** The whole control loop keeps the invariants, and the interceptors spent are
      exactly the intercepts logged. */
  lemma {:induction false} ControlLoopProperties(s: State, ticks: seq<Tick>, geo: Geometry, cfg: Config, teamId: int, q: Queries)
    requires Wf(s)
    ensures var t := ControlLoop(s, ticks, geo, cfg, teamId, q).0;
      Wf(t) && Total(t.inventory) + |t.log| == Total(s.inventory) + |s.log|
    decreases |ticks|
  {
    if !DoneCheck(Some(s.inventory)) && |ticks| > 0 {
      var mid := RunCalls(s, ticks[0].calls, ticks[0].now, geo, cfg, teamId, q);
      RunCallsProperties(s, ticks[0].calls, ticks[0].now, geo, cfg, teamId, q);
      ControlLoopProperties(mid, ticks[1..], geo, cfg, teamId, q);
    }
  }
}

=== FILE: strings.dfy ===
/** Python string operations the source relies on, over `seq<char>`. */
module Strings {

  /** `sep.join(pieces)` for a one-character separator. */
  function Join(pieces: seq<string>, sep: char): string
    requires |pieces| >= 1
  {
    if |pieces| == 1 then pieces[0] else pieces[0] + [sep] + Join(pieces[1..], sep)
  }

  /** Python's `s.split(sep)` for a one-character separator: the pieces between
      separators, in order. There is always at least one piece, no piece holds the
      separator, and joining the pieces back gives `s`. */
  function Split(s: string, sep: char): (r: seq<string>)
    ensures |r| >= 1
    ensures forall i :: 0 <= i < |r| ==> sep !in r[i]
    ensures Join(r, sep) == s
    decreases |s|
  {
    if |s| == 0 then [""]
    else
      var rest := Split(s[1..], sep);
      if s[0] == sep then
        assert [""] + rest == [""] + rest;
        [""] + rest
      else
        var r := [[s[0]] + rest[0]] + rest[1..];
        assert r[1..] == rest[1..];
        assert s == [s[0]] + s[1..];
        r
  }

  /** A string without the separator is a single piece. */
  lemma {:induction false} SplitNoSep(a: string, sep: char)
    requires sep !in a
    ensures Split(a, sep) == [a]
    decreases |a|
  {
    if |a| > 0 {
      SplitNoSep(a[1..], sep);
      assert [a[0]] + a[1..] == a;
    }
  }

  /** Splitting `a + sep + b` peels `a` off as the first piece. */
  lemma {:induction false} SplitAfter(a: string, b: string, sep: char)
    requires sep !in a
    ensures Split(a + [sep] + b, sep) == [a] + Split(b, sep)
    decreases |a|
  {
    var s := a + [sep] + b;
    if |a| == 0 {
      assert s[1..] == b;
    } else {
      assert s[1..] == a[1..] + [sep] + b;
      SplitAfter(a[1..], b, sep);
      assert [a[0]] + a[1..] == a;
    }
  }

  /** Splitting undoes joining, when no piece holds the separator. */
  lemma {:induction false} SplitJoin(pieces: seq<string>, sep: char)
    requires |pieces| >= 1
    requires forall i :: 0 <= i < |pieces| ==> sep !in pieces[i]
    ensures Split(Join(pieces, sep), sep) == pieces
    decreases |pieces|
  {
    if |pieces| == 1 {
      SplitNoSep(pieces[0], sep);
    } else {
      SplitJoin(pieces[1..], sep);
      SplitAfter(pieces[0], Join(pieces[1..], sep), sep);
      assert [pieces[0]] + pieces[1..] == pieces;
    }
  }

  /** `s.split(sep)` yields a single piece exactly when `s` has no separator. */
  lemma SplitSingleIff(s: string, sep: char)
    ensures |Split(s, sep)| == 1 <==> sep !in s
  {
    if sep !in s {
      SplitNoSep(s, sep);
    }
  }

  /** Python's `s.replace(a, b)` for single characters. */
  function ReplaceChar(s: string, a: char, b: char): (r: string)
    ensures |r| == |s|
    ensures forall i :: 0 <= i < |s| ==> r[i] == (if s[i] == a then b else s[i])
    ensures a != b ==> a !in r
  {
    if |s| == 0 then []
    else [if s[0] == a then b else s[0]] + ReplaceChar(s[1..], a, b)
  }

  /** Replacing characters commutes with concatenation. */
  lemma ReplaceCharAppend(a: string, b: string, x: char, y: char)
    ensures ReplaceChar(a + b, x, y) == ReplaceChar(a, x, y) + ReplaceChar(b, x, y)
  {
    var l, r := ReplaceChar(a + b, x, y), ReplaceChar(a, x, y) + ReplaceChar(b, x, y);
    assert |l| == |r|;
    forall i | 0 <= i < |l| ensures l[i] == r[i] {
      if i < |a| {
        assert (a + b)[i] == a[i];
      } else {
        assert (a + b)[i] == b[i - |a|];
      }
    }
  }

  /** Replacing a character that does not occur changes nothing. */
  lemma ReplaceCharAbsent(s: string, a: char, b: char)
    requires a !in s
    ensures ReplaceChar(s, a, b) == s
  {
  }

  predicate StartsWith(s: string, q: string)
  {
    |q| <= |s| && s[..|q|] == q
  }

  /** `pat` occurs in `s` starting at index `i`. */
  predicate OccursAt(s: string, pat: string, i: nat)
  {
    i + |pat| <= |s| && s[i..i + |pat|] == pat
  }

  /** Python's `s.replace(pat, rep)`: leftmost, non-overlapping occurrences. */
  function Replace(s: string, pat: string, rep: string): (r: string)
    requires |pat| > 0
    ensures forall c :: c in r ==> c in s || c in rep
    decreases |s|
  {
    if |s| < |pat| then s
    else if s[..|pat|] == pat then rep + Replace(s[|pat|..], pat, rep)
    else [s[0]] + Replace(s[1..], pat, rep)
  }

  function ReplaceNone(s: string): string
  {
    Replace(s, "None", "null")
  }

  lemma ReplaceNoneHead(t: string)
    requires |t| > 0
    ensures |ReplaceNone(t)| > 0
    ensures ReplaceNone(t)[0] == (if StartsWith(t, "None") then 'n' else t[0])
    ensures !StartsWith(t, "None") ==> ReplaceNone(t)[1..] == ReplaceNone(t[1..])
  {
    if |t| < 4 {
      assert !StartsWith(t, "None");
    } else if t[..4] == "None" {
    } else {
      assert !StartsWith(t, "None");
    }
  }

  /** After Python's `replace('None', 'null')` no `None` is left: a `null` that was
      written can never combine with neighbouring characters into a new `None`. */
  lemma {:induction false} ReplaceNoneLeavesNoNone(s: string, i: nat)
    ensures !OccursAt(ReplaceNone(s), "None", i)
    decreases |s|
  {
    var r := ReplaceNone(s);
    if |s| < 4 {
    } else if s[..4] == "None" {
      var tail := s[4..];
      assert r == "null" + ReplaceNone(tail);
      if i >= 4 {
        ReplaceNoneLeavesNoNone(tail, i - 4);
        if i + 4 <= |r| {
          assert r[4..] == ReplaceNone(tail);
          assert r[i..i + 4] == ReplaceNone(tail)[i - 4..i];
        }
      } else if i + 4 <= |r| {
        assert r[i] == "null"[i];
      }
    } else {
      var t := s[1..];
      assert r == [s[0]] + ReplaceNone(t);
      if i >= 1 {
        ReplaceNoneLeavesNoNone(t, i - 1);
        if i + 4 <= |r| {
          var rt := ReplaceNone(t);
          assert r[1..] == rt;
          assert r[i..i + 4] == rt[i - 1..i + 3];
        }
      } else if |s| >= 4 {
        NoNoneAtFront(s);
      }
    }
  }

  /** The first four characters of the result spell `None` only if the input
      itself starts with `None`. */
  lemma NoNoneAtFront(s: string)
    requires |s| >= 4 && !StartsWith(s, "None")
    ensures !OccursAt(ReplaceNone(s), "None", 0)
  {
    var t := s[1..];
    var u := t[1..];
    var w := u[1..];
    var r := ReplaceNone(s);
    assert r == [s[0]] + ReplaceNone(t);
    assert s[..4] == [s[0], t[0], u[0], w[0]];
    ReplaceNoneHead(t);
    if !StartsWith(t, "None") {
      ReplaceNoneHead(u);
      if !StartsWith(u, "None") {
        ReplaceNoneHead(w);
        assert r[1..4] == [ReplaceNone(t)[0], ReplaceNone(u)[0], ReplaceNone(w)[0]];
      } else {
        assert ReplaceNone(u) == "null" + ReplaceNone(u[4..]);
        assert r[3] == ReplaceNone(u)[1] == 'u';
      }
    }
  }
}

=== FILE: time_conversion.dfy ===
/** The time-string helpers the defender uses: "h:m:s" to seconds, the same after a
    date prefix, and the "day/month/year" reformatting of payload timestamps. */
module TimeConversion {
  import opened Common
  import opened Strings
  import opened Numbers
  import opened NumberText

  /** Hours, minutes and seconds already read, combined into seconds; a field
      that failed to read fails the whole. */
  function HmsTotal(h: Option<int>, m: Option<int>, s: Option<real>): (r: Option<real>)
    ensures r.Some? <==> h.Some? && m.Some? && s.Some?
    ensures r.Some? ==> r.value == 3600.0 * h.value as real + 60.0 * m.value as real + s.value
  {
    if h.Some? && m.Some? && s.Some? then Some((h.value * 3600 + m.value * 60) as real + s.value)
    else None
  }

  /** Hours, minutes and seconds fields read as `int`, `int` and `float`. */
  function HmsSeconds(h: string, m: string, s: string): (r: Option<real>)
    ensures r.Some? <==> ParseInt(h).Some? && ParseInt(m).Some? && ParseFloat(s).Some?
    ensures r.Some? ==> r.value == 3600.0 * ParseInt(h).value as real + 60.0 * ParseInt(m).value as real + ParseFloat(s).value
  {
    HmsTotal(ParseInt(h), ParseInt(m), ParseFloat(s))
  }

  /** `convertTimeToSecondsSimple`: the first three colon-separated fields read as
      hours, minutes and seconds. `None` is the `IndexError` or `ValueError` the
      source raises. The source returns the number formatted with `str`; the model
      returns the number. */
  function ToSecondsSimple(inTime: string): (r: Option<real>)
    ensures |Split(inTime, ':')| < 3 ==> r == None
  {
    var fields := Split(inTime, ':');
    if |fields| < 3 then None else HmsSeconds(fields[0], fields[1], fields[2])
  }

  /** Colon-free pieces before a tail `u` split off first. */
  lemma SplitColons(h: string, m: string, u: string)
    requires ':' !in h && ':' !in m
    ensures Split(h + [':'] + (m + [':'] + u), ':') == [h, m] + Split(u, ':')
  {
    SplitAfter(m, u, ':');
    SplitAfter(h, m + [':'] + u, ':');
  }

  /** Three colon-free fields joined by colons split back into those fields. */
  lemma SplitHms(h: string, m: string, s: string)
    requires ':' !in h && ':' !in m && ':' !in s
    ensures Split(h + ":" + m + ":" + s, ':') == [h, m, s]
  {
    SplitNoSep(s, ':');
    SplitColons(h, m, s);
    assert h + ":" + m + ":" + s == h + [':'] + (m + [':'] + s);
  }

  /** ... and with a further colon and a tail, those three fields come first. */
  lemma SplitHmsTail(h: string, m: string, s: string, rest: string)
    requires ':' !in h && ':' !in m && ':' !in s
    ensures Split(h + ":" + m + ":" + s + ":" + rest, ':') == [h, m, s] + Split(rest, ':')
  {
    var u := s + [':'] + rest;
    assert h + ":" + m + ":" + s + ":" + rest == h + [':'] + (m + [':'] + u);
    assert Split(u, ':') == [s] + Split(rest, ':') by { SplitAfter(s, rest, ':'); }
    assert Split(h + [':'] + (m + [':'] + u), ':') == [h, m] + Split(u, ':') by { SplitColons(h, m, u); }
  }

  /** "h:m:s" is 3600 h + 60 m + s seconds. */
  lemma ToSecondsSimpleValue(h: string, m: string, s: string)
    requires ':' !in h && ':' !in m && ':' !in s
    ensures ToSecondsSimple(h + ":" + m + ":" + s) == HmsSeconds(h, m, s)
  {
    SplitHms(h, m, s);
  }

  /** Colon fields beyond the third are never read. */
  lemma ToSecondsSimpleIgnoresExtraFields(h: string, m: string, s: string, rest: string)
    requires ':' !in h && ':' !in m && ':' !in s
    ensures ToSecondsSimple(h + ":" + m + ":" + s + ":" + rest) == ToSecondsSimple(h + ":" + m + ":" + s)
  {
    SplitHms(h, m, s);
    SplitHmsTail(h, m, s, rest);
  }

  /** The example from the source's comment: "12:12:07" is 43927 seconds. */
  lemma ToSecondsSimpleExample()
    ensures ToSecondsSimple("12:12:07") == Some(43927.0)
  {
    assert "12:12:07" == "12" + ":" + "12" + ":" + "07";
    ToSecondsSimpleValue("12", "12", "07");
    HmsExample();
  }

  /** The fields of that example: 12 hours, 12 minutes and 7 seconds. */
  lemma HmsExample()
    ensures HmsSeconds("12", "12", "07") == Some(43927.0)
  {
    assert DigitsValue("12") == 12 by { assert "12"[..1] == "1" && "1"[..0] == ""; }
    assert DigitsValue("07") == 7 by { assert "07"[..1] == "0" && "0"[..0] == ""; }
    HmsDigits("12", "12", "07", 12, 12, 7);
  }

  /** Fields of plain digits are read as the numbers they spell. */
  lemma HmsDigits(h: string, m: string, s: string, hv: nat, mv: nat, sv: nat)
    requires |h| > 0 && AllDigits(h) && DigitsValue(h) == hv
    requires |m| > 0 && AllDigits(m) && DigitsValue(m) == mv
    requires |s| > 0 && AllDigits(s) && DigitsValue(s) == sv
    ensures HmsSeconds(h, m, s) == Some(3600.0 * hv as real + 60.0 * mv as real + sv as real)
  {
    var hp, mp, sp := ParseInt(h), ParseInt(m), ParseFloat(s);
    assert hp == Some(hv) by { DigitsText(h, hv); }
    assert mp == Some(mv) by { DigitsText(m, mv); }
    assert sp == Some(sv as real) by { PlainDigits(s); }
    var r := HmsSeconds(h, m, s);
    assert r.Some?;
    assert r.value == 3600.0 * hv as real + 60.0 * mv as real + sv as real;
  }

  /** Whitespace around any of the three fields is ignored, as `int()` and
      `float()` ignore it. */
  lemma HmsIgnoresWhitespace(h: string, m: string, s: string, pre: string, post: string)
    requires AllSpace(pre) && AllSpace(post)
    ensures HmsSeconds(pre + h + post, m, s) == HmsSeconds(h, m, s)
    ensures HmsSeconds(h, pre + m + post, s) == HmsSeconds(h, m, s)
    ensures HmsSeconds(h, m, pre + s + post) == HmsSeconds(h, m, s)
  {
    IntIgnoresWhitespace(pre, h, post);
    IntIgnoresWhitespace(pre, m, post);
    FloatIgnoresWhitespace(pre, s, post);
  }

  /** A space inside the time is no error: "1:2: 3" is 3723 seconds. */
  lemma ToSecondsSimpleSpaces()
    ensures ToSecondsSimple("1:2: 3") == Some(3723.0)
  {
    assert "1:2: 3" == "1" + ":" + "2" + ":" + (" " + "3" + "");
    ToSecondsSimpleValue("1", "2", " " + "3" + "");
    HmsIgnoresWhitespace("1", "2", "3", " ", "");
    HmsSpacesExample();
  }

  /** The fields of that example once the space is gone. */
  lemma HmsSpacesExample()
    ensures HmsSeconds("1", "2", "3") == Some(3723.0)
  {
    HmsDigits("1", "2", "3", 1, 2, 3);
  }

  /** `convertTimeToSecondsNoDate`: the second space-separated field, read as
      "h:m:s". A string without a space raises `IndexError` (`None`). */
  function ToSecondsNoDate(inTime: string): (r: Option<real>)
    ensures ' ' !in inTime ==> r == None
  {
    var pieces := Split(inTime, ' ');
    SplitSingleIff(inTime, ' ');
    if |pieces| < 2 then None else ToSecondsSimple(pieces[1])
  }

  /** With a date that holds no space, the date prefix is skipped: the clock part
      up to its first space is read as by `ToSecondsSimple`, and a clock part
      without spaces is read whole. */
  lemma ToSecondsNoDateSkipsDate(date: string, clock: string)
    requires ' ' !in date
    ensures ToSecondsNoDate(date + " " + clock) == ToSecondsSimple(Split(clock, ' ')[0])
    ensures ' ' !in clock ==> ToSecondsNoDate(date + " " + clock) == ToSecondsSimple(clock)
  {
    SplitAfter(date, clock, ' ');
    if ' ' !in clock {
      SplitNoSep(clock, ' ');
    }
  }

  /** Python's `y[2::]`: everything after the first two characters. */
  function DropTwo(y: string): (r: string)
    ensures |y| >= 2 ==> |r| == |y| - 2 && y == y[..2] + r
    ensures |y| < 2 ==> r == ""
  {
    if |y| <= 2 then "" else y[2..]
  }

  /** The output layout "day/month/yy time" from the dash-separated pieces. */
  function Reformat(raw: seq<string>): string
    requires |raw| >= 4
  {
    raw[2] + "/" + raw[1] + "/" + DropTwo(raw[0]) + " " + raw[3]
  }

  /** `convertDateToOtherDate`: spaces become dashes, the string is split on dashes,
      and the first four pieces are reassembled as "day/month/yy time". Fewer than
      four pieces raise `IndexError` (`None`). */
  function DateToOtherDate(inTime: string): (r: Option<string>)
    ensures r.Some? ==> '-' !in r.value && ' ' in r.value
  {
    var raw := Split(ReplaceChar(inTime, ' ', '-'), '-');
    if |raw| < 4 then None else Some(Reformat(raw))
  }

  lemma Reassociate(a: string, b: string, c: string, e: string)
    ensures a + b + c + e == a + (b + c) + e
  {
  }

  /** The space between date and time becomes a dash; the date and time, which
      hold no space, are kept. */
  lemma DashedDate(date: string, t: string, tail: string)
    requires ' ' !in date && ' ' !in t
    ensures ReplaceChar(date + " " + t + tail, ' ', '-') == date + ("-" + t) + ReplaceChar(tail, ' ', '-')
  {
    ReplaceCharAbsent(date, ' ', '-');
    ReplaceCharAbsent(t, ' ', '-');
    ReplaceCharAppend(" ", t, ' ', '-');
    ReplaceCharAppend(date, " " + t, ' ', '-');
    ReplaceCharAppend(date + (" " + t), tail, ' ', '-');
    assert ReplaceChar(" ", ' ', '-') == "-";
    Reassociate(date, " ", t, tail);
  }

  lemma DashedForm(y: string, mo: string, d: string, t: string, rest: string)
    ensures (y + "-" + mo + "-" + d) + ("-" + t) + rest == y + ['-'] + (mo + ['-'] + (d + ['-'] + (t + rest)))
  {
  }

  /** Pieces free of dashes before a tail `u` split off first. */
  lemma SplitDashed(y: string, mo: string, d: string, u: string)
    requires '-' !in y && '-' !in mo && '-' !in d
    ensures Split(y + ['-'] + (mo + ['-'] + (d + ['-'] + u)), '-') == [y, mo, d] + Split(u, '-')
  {
    SplitAfter(d, u, '-');
    SplitAfter(mo, d + ['-'] + u, '-');
    SplitAfter(y, mo + ['-'] + (d + ['-'] + u), '-');
  }

  /** The time field keeps only what precedes the tail's first dash. */
  lemma SplitClock(t: string, rest: string)
    requires '-' !in t
    requires rest == "" || rest[0] == '-'
    ensures Split(t + rest, '-')[0] == t
  {
    if rest == "" {
      assert Split(t + rest, '-') == [t] by {
        assert t + rest == t;
        SplitNoSep(t, '-');
      }
    } else {
      assert Split(t + rest, '-')[0] == t by {
        assert t + rest == t + ['-'] + rest[1..];
        SplitAfter(t, rest[1..], '-');
      }
    }
  }

  /** "Y-M-D T" becomes "D/M/Y' T", with `Y'` the year without its first two
      characters and the other fields copied verbatim, provided no field holds a
      dash or a space; whatever follows the time from its first dash or space on
      is dropped. Only a four-digit year gives a two-character year field; from
      year 10000 on it has three. */
  lemma DateToOtherDateFields(y: string, mo: string, d: string, t: string, tail: string)
    requires '-' !in y && '-' !in mo && '-' !in d && '-' !in t
    requires ' ' !in y && ' ' !in mo && ' ' !in d && ' ' !in t
    requires tail == "" || tail[0] == '-' || tail[0] == ' '
    ensures DateToOtherDate(y + "-" + mo + "-" + d + " " + t + tail) == Some(d + "/" + mo + "/" + DropTwo(y) + " " + t)
    ensures |y| == 4 ==> |DropTwo(y)| == 2
    ensures |y| == 5 ==> |DropTwo(y)| == 3
  {
    var rest := ReplaceChar(tail, ' ', '-');
    DashedDate(y + "-" + mo + "-" + d, t, tail);
    DashedForm(y, mo, d, t, rest);
    SplitDashed(y, mo, d, t + rest);
    SplitClock(t, rest);
    var raw := Split(ReplaceChar(y + "-" + mo + "-" + d + " " + t + tail, ' ', '-'), '-');
    assert raw == [y, mo, d] + Split(t + rest, '-');
    assert raw[..4] == [y, mo, d, t];
  }
}

=== FILE: trajectory.dfy ===
/** Motion of a tracked missile: the velocity estimate from two radar samples and
    the one-second linear trajectory prediction the defender stores in
    `trajectory_prediction`. */
module Trajectory {
  import opened Common
  import opened Numbers

  /** A PostGIS point: longitude, latitude and altitude, all in degrees. */
  datatype Point3 = Point3(x: real, y: real, z: real)

  function Plus(p: Point3, q: Point3): Point3
  {
    Point3(p.x + q.x, p.y + q.y, p.z + q.z)
  }

  function Scale(p: Point3, k: real): Point3
  {
    Point3(p.x * k, p.y * k, p.z * k)
  }

  /** The per-axis speed `(new - prev) / (t_new - t_prev)`. Python raises
      `ZeroDivisionError` on equal times, which the model reports as `None`. */
  function Velocity(prev: Point3, prevTime: real, cur: Point3, curTime: real): (r: Option<Point3>)
    ensures r.None? <==> curTime == prevTime
    ensures r.Some? ==> Plus(prev, Scale(r.value, curTime - prevTime)) == cur
  {
    var dt := curTime - prevTime;
    if dt == 0.0 then None
    else Some(Point3((cur.x - prev.x) / dt, (cur.y - prev.y) / dt, (cur.z - prev.z) / dt))
  }

  /** One row of `trajectory_prediction`: a position and its `INT` time code. */
  datatype Predicted = Predicted(pos: Point3, timeCode: int)

  /** The PL/pgSQL loop from `count` on: while `count < cap`, insert the point
      `count` seconds ahead, stamped `now + count` rounded into the `INT` column. */
  function PredictFrom(cur: Point3, v: Point3, now: real, count: int, cap: int): (r: seq<Predicted>)
    requires count >= 1
    ensures |r| == if count >= cap then 0 else cap - count
    ensures forall i :: 0 <= i < |r| ==>
      r[i].pos == Plus(cur, Scale(v, (count + i) as real)) && r[i].timeCode == RoundNumeric(now + (count + i) as real)
    decreases cap - count
  {
    if count >= cap then []
    else
      var rest := PredictFrom(cur, v, now, count + 1, cap);
      [Predicted(Plus(cur, Scale(v, count as real)), RoundNumeric(now + count as real))] + rest
  }

  /** The whole prediction: `count` starts at 1, so there are `cap - 1` points
      (none when `cap <= 1`), point `i` lying `i + 1` seconds ahead. */
  function Predict(cur: Point3, v: Point3, now: real, cap: int): (r: seq<Predicted>)
    ensures |r| == if cap <= 1 then 0 else cap - 1
    ensures forall i :: 0 <= i < |r| ==>
      r[i].pos == Plus(cur, Scale(v, (i + 1) as real)) && r[i].timeCode == RoundNumeric(now + (i + 1) as real)
  {
    PredictFrom(cur, v, now, 1, cap)
  }

  /** Two instants at least a second apart round to different time codes, in order. */
  lemma RoundNumericSeparates(a: real, b: real)
    requires a + 1.0 <= b
    ensures RoundNumeric(a) < RoundNumeric(b)
  {
  }

  /** Time codes along a prediction strictly increase, so "earliest" and "latest"
      point are well defined. */
  lemma PredictTimesIncrease(cur: Point3, v: Point3, now: real, cap: int, i: int, j: int)
    requires 0 <= i < j < |Predict(cur, v, now, cap)|
    ensures Predict(cur, v, now, cap)[i].timeCode < Predict(cur, v, now, cap)[j].timeCode
  {
    RoundNumericSeparates(now + (i + 1) as real, now + (j + 1) as real);
  }

  /** The prediction extrapolates the two samples linearly: with the velocity from
      a sample at `prevTime`, point `i` is where the straight-line motion through
      both samples is `curTime - prevTime + i + 1` seconds after the first. */
  lemma PredictOnLine(prev: Point3, prevTime: real, cur: Point3, curTime: real, now: real, cap: int, i: int)
    requires Velocity(prev, prevTime, cur, curTime).Some?
    requires 0 <= i < |Predict(cur, Velocity(prev, prevTime, cur, curTime).value, now, cap)|
    ensures var v := Velocity(prev, prevTime, cur, curTime).value;
      Predict(cur, v, now, cap)[i].pos == Plus(prev, Scale(v, curTime - prevTime + (i + 1) as real))
  {
    var v := Velocity(prev, prevTime, cur, curTime).value;
    var dt, k := curTime - prevTime, (i + 1) as real;
    assert cur == Plus(prev, Scale(v, dt));
    assert v.x * (dt + k) == v.x * dt + v.x * k;
    assert v.y * (dt + k) == v.y * dt + v.y * k;
    assert v.z * (dt + k) == v.z * dt + v.z * k;
  }
}

=== FILE: urltargets.dfy ===
/** Splitting of the `target` path segment of the `findOne` and `findClosest`
    routes into the values that go into their queries. */
module UrlTargets {
  import opened Strings

  /** What `findOne` extracts: the column name and the value, or the
      "Invalid URL field." answer given before any query is built. */
  datatype Lookup = InvalidField | Field(attribute: string, value: string)

  /** `findOne`: split on `=`; piece 0 is the attribute, piece 1 the value. */
  function FindOne(target: string): (r: Lookup)
    ensures r.InvalidField? <==> '=' !in target
    ensures r.Field? ==> '=' !in r.attribute && '=' !in r.value
  {
    var pieces := Split(target, '=');
    SplitSingleIff(target, '=');
    if |pieces| < 2 then InvalidField else Field(pieces[0], pieces[1])
  }

  /** A well-formed `key=value` segment gives back its key and value. */
  lemma FindOneRoundTrip(attribute: string, value: string)
    requires '=' !in attribute && '=' !in value
    ensures FindOne(attribute + "=" + value) == Field(attribute, value)
  {
    SplitAfter(attribute, value, '=');
    SplitNoSep(value, '=');
  }

  /** Everything from a second `=` on is ignored: `a=b=c` reads as `a`, `b`. */
  lemma FindOneIgnoresRest(attribute: string, value: string, rest: string)
    requires '=' !in attribute && '=' !in value
    ensures FindOne(attribute + "=" + value + "=" + rest) == Field(attribute, value)
  {
    assert attribute + "=" + value + "=" + rest == attribute + ['='] + (value + ['='] + rest);
    SplitAfter(attribute, value + ['='] + rest, '=');
    SplitAfter(value, rest, '=');
  }

  /** What `findClosest` extracts: the two coordinates, or "Invalid URL field.". */
  datatype Closest = InvalidPoint | Point(first: string, second: string)

  /** The pieces `findClosest` sees: `&` is rewritten to `=` before splitting. */
  function ClosestPieces(target: string): (r: seq<string>)
    ensures |r| >= 1
    ensures forall i :: 0 <= i < |r| ==> '&' !in r[i] && '=' !in r[i]
  {
    var joined := ReplaceChar(target, '&', '=');
    var r := Split(joined, '=');
    assert forall i :: 0 <= i < |r| ==> forall c :: c in r[i] ==> c in joined by {
      forall i | 0 <= i < |r| ensures forall c :: c in r[i] ==> c in joined {
        JoinContains(r, '=', i);
      }
    }
    r
  }

  /** Every character of a piece is a character of the joined string. */
  lemma {:induction false} JoinContains(pieces: seq<string>, sep: char, i: int)
    requires |pieces| >= 1 && 0 <= i < |pieces|
    ensures forall c :: c in pieces[i] ==> c in Join(pieces, sep)
    decreases |pieces|
  {
    if |pieces| > 1 {
      var rest := Join(pieces[1..], sep);
      assert Join(pieces, sep) == pieces[0] + [sep] + rest;
      if i > 0 {
        JoinContains(pieces[1..], sep, i - 1);
        assert pieces[1..][i - 1] == pieces[i];
      }
    }
  }

  /** `findClosest`: pieces 1 and 3 are the longitude and latitude; the names in
      pieces 0 and 2 are never looked at. */
  function FindClosest(target: string): (r: Closest)
    ensures r.InvalidPoint? <==> |ClosestPieces(target)| < 4
    ensures r.Point? ==> '&' !in r.first && '=' !in r.first && '&' !in r.second && '=' !in r.second
  {
    var pieces := ClosestPieces(target);
    if |pieces| < 4 then InvalidPoint else Point(pieces[1], pieces[3])
  }

  /** A segment without `&` or `=` in any of its parts. */
  predicate Plain(s: string) { '&' !in s && '=' !in s }

  /** Rewriting a separator that follows a plain part. */
  lemma RewriteAfter(x: string, c: char, y: string)
    requires '&' !in x
    ensures ReplaceChar(x + [c] + y, '&', '=') == x + [if c == '&' then '=' else c] + ReplaceChar(y, '&', '=')
  {
    var c' := if c == '&' then '=' else c;
    ReplaceCharAppend(x + [c], y, '&', '=');
    ReplaceCharAppend(x, [c], '&', '=');
    ReplaceCharAbsent(x, '&', '=');
    assert ReplaceChar([c], '&', '=') == [c'] by {
      assert ReplaceChar([c], '&', '=')[0] == c';
    }
  }

  /** The segment `a1=v1&a2=v2`, grouped from the right. */
  lemma SegmentShape(a1: string, v1: string, a2: string, v2: string)
    ensures a1 + "=" + v1 + "&" + a2 + "=" + v2 == a1 + ['='] + (v1 + ['&'] + (a2 + ['='] + v2))
  {
  }

  /** How `&` is rewritten in a `name=value&name=value` segment. */
  lemma RewriteSegment(a1: string, v1: string, a2: string, v2: string)
    requires Plain(a1) && Plain(v1) && Plain(a2) && Plain(v2)
    ensures ReplaceChar(a1 + "=" + v1 + "&" + a2 + "=" + v2, '&', '=')
      == a1 + ['='] + (v1 + ['='] + (a2 + ['='] + v2))
  {
    SegmentShape(a1, v1, a2, v2);
    RewriteAfter(a1, '=', v1 + ['&'] + (a2 + ['='] + v2));
    RewriteAfter(v1, '&', a2 + ['='] + v2);
    RewriteAfter(a2, '=', v2);
    ReplaceCharAbsent(v2, '&', '=');
  }

  /** A well-formed `name=value&name=value` segment gives back its two values. */
  lemma FindClosestRoundTrip(a1: string, v1: string, a2: string, v2: string)
    requires Plain(a1) && Plain(v1) && Plain(a2) && Plain(v2)
    ensures FindClosest(a1 + "=" + v1 + "&" + a2 + "=" + v2) == Point(v1, v2)
  {
    RewriteSegment(a1, v1, a2, v2);
    SplitAfter(a1, v1 + ['='] + (a2 + ['='] + v2), '=');
    SplitAfter(v1, a2 + ['='] + v2, '=');
    SplitAfter(a2, v2, '=');
    SplitNoSep(v2, '=');
  }

  /** Only the positions of the values matter: the names can be anything. */
  lemma FindClosestIgnoresNames(a1: string, b1: string, v1: string, a2: string, b2: string, v2: string)
    requires Plain(a1) && Plain(b1) && Plain(v1) && Plain(a2) && Plain(b2) && Plain(v2)
    ensures FindClosest(a1 + "=" + v1 + "&" + a2 + "=" + v2) == FindClosest(b1 + "=" + v1 + "&" + b2 + "=" + v2)
  {
    FindClosestRoundTrip(a1, v1, a2, v2);
    FindClosestRoundTrip(b1, v1, b2, v2);
  }

  /** `&` and `=` are interchangeable separators. */
  lemma FindClosestSeparators(target: string)
    ensures FindClosest(ReplaceChar(target, '&', '=')) == FindClosest(target)
  {
    var once := ReplaceChar(target, '&', '=');
    ReplaceCharAbsent(once, '&', '=');
  }
}
